=== FILE: README.md ===
# Carman valet client — a verified model of its core

Carman is a React Native client for valet-parking staff. Staff sign in and pick an establishment, then open and close work shifts. They watch the vehicles of the establishment move through six states, from `INGRESADO` to `FACTURADO`. This project models in Dafny the parts of the client that hold logic:

- **The HTTP client** (`ApiClient`). It builds the bearer header from the stored token and normalises every raw HTTP outcome into one tagged `ApiResponse`. It also holds the refresh-token guard and the profile fallback.
- **The session service** (`Auth`). It keeps the authentication record and mirrors it in three keys of the persisted key-value store. It has four transitions: `initialize`, `login`, `logout` and `refreshAuthToken`. Listeners get a copy of the record after every change.
- **The shift service and hooks** (`ShiftService`, `UseShift`, `ShiftMutations`). They cover how a request's outcome becomes an active shift, a created or closed shift, or an error message. They cover what the hook's state and alerts become, and which outcomes mark the cached shift reads as stale.
- **The application store** (`AppStore`). It holds seven fields and persists five of them.
- **The route guard** (`AuthGuard`).
- **The vehicle hooks** (`UseVehicles`). These cover prepending a new vehicle, updating one vehicle's state by id, and selecting the first establishment automatically.
- **The vehicle list components** (`VehicleList`, `VehicleGroupTags`, `VehicleTag`, `VehicleCard`). The list filters by shift and by plate, splits vehicles into red, yellow and green groups, and sorts each group by arrival time. Tags show counts and selection; cards show colours and the texts they display.

Two forms are used:

- **Pure code** is written as datatypes and functions with lemmas.
- **State that is updated step by step** is written as classes. These are the session record and its listeners, the hooks' state cells, the query cache, the store and the list's selection. Each class method's `ensures` ties the new state to a pure step function. The lemmas prove what the source promises about those step functions.

Everything outside the program is a parameter:

- the server's replies and `fetch` rejections;
- key-value store reads and writes;
- `JSON.parse` and `JSON.stringify`;
- date parsing and formatting.

Modules:

- **Shared:** `Common` holds optional values, thrown values, `includes`, lower-casing and number text. `JsonValue` holds JSON values and truthiness. `Seqs` holds `filter` and a stable sort. `Config` and `Types` hold the constants and the records of `src/config/constants.ts` and `src/types/*.ts`.
- **One per source file:** `ApiClient`, `Auth`, `ShiftService`, `UseShift`, `ShiftMutations`, `AppStore`, `AuthGuard`, `UseVehicles`, `VehicleList`, `VehicleGroupTags`, `VehicleTag` and `VehicleCard`.

## Behaviour of the code as written

Where the written description of the system and the code differ, the model follows the code:

- **Profile errors.** `getUserProfile` never raises: a failed profile request yields `{user: {}}`. So `login`'s inner fallback, which stores a `null` user, is reached only when storing the user data rejects.
- **No refresh token from login.** `login` never stores a refresh token and always sets it to `null`. A later `refreshAuthToken` after a plain login therefore finds no refresh token and logs out.
- **Corrupt user data.** When the stored user data does not parse, `initialize` removes the three keys but changes no field of the record except the loading flag.
- **Double notification.** `initialize` and `login` notify listeners twice: first with the loading snapshot, then with the final record.
- **Closing a shift.** Closing a shift on a failed response always reports `"Error al cerrar el turno"`. This happens even for a 404 or a non-JSON answer, because the 404/non-JSON test in the catch block sees only that fixed message.
- **Opening a shift.** Opening a shift maps any error text containing `404` or `non-JSON` to the single "service unavailable" message. A JSON 404 that carries a server message becomes `"Error al crear el turno: <message>"` unless that message mentions 404.
- **Unused status check.** `shiftService` tests `error.response?.status`, which the fetch-based client never sets, so its 404 branch is reached only through the error text. `useEndShift` goes through the axios instance of `src/services/shiftServiceNew.ts`, which does set the status, so its 400 branch is live. The model keeps the status as an optional field of the error value.
- **Empty tokens.** `login` and `refreshAuthToken` adopt whatever token a successful reply carries, without testing it, so an empty token signs in. Only `initialize` requires a non-empty stored token. An authenticated record therefore always holds a token, but a non-empty one only when it was restored by `initialize`.
- **Null shift body.** A 2xx reply whose JSON body is `null` reaches the mutations' `onSuccess`, where reading `data.nombre` throws. React Query then runs `onError`: both hooks alert "Hubo un Error" and leave the cached shift reads as they were.
- **Selection after the list changes.** The list's initial-list effect replaces the vehicles on display but never changes the selected group. With no requested vehicle and an arrived one, the red vehicles are shown while the yellow tag stays selected.
- **Mount order.** When the group tags mount in the same commit in which the group sizes change, React runs the tags' mount call first and the list's effect last. The sorted yellow group the tags pass is then replaced by the same vehicles in list order.

## Model

| member | source | states |
|---|---|---|
| Common.MessageOr | src/hooks/useVehicles.ts:21 | an `Error`'s own message, any other thrown value the fallback |
| Common.OrElse | src/services/authService.ts:135 | `s \|\| fallback`: the text when non-empty, else the fallback |
| Common.ToLower | src/components/VehicleList.tsx:35 | same length, each character lower-cased (ASCII) |
| Common.ToLowerIdempotent | src/components/VehicleList.tsx:34-36 | lower-casing twice equals lower-casing once |
| Common.NatToString | src/services/apiClient.ts:100 | the decimal text of a status is non-empty digits without leading zero |
| Common.NatToStringRoundTrip | src/services/apiClient.ts:100 | reading the decimal text back gives the number |
| Common.IntToString | src/components/VehicleCard.tsx:67 | `toString()` of an integer: non-empty, starts with `-` exactly for negatives |
| JsonValue.Field | src/services/apiClient.ts:114 | `j?.key` is present exactly for an object holding the key, and is its value |
| Types.ParseShiftState | src/types/shift.ts:1 | a parsed shift period names exactly the given text |
| Types.ShiftStateNameRoundTrip | src/types/shift.ts:1 | every period's text parses back to it |
| Types.ParseVehicleState | src/types/vehicle.ts:1-7 | a parsed vehicle state names exactly the given text |
| Types.VehicleStateNameRoundTrip | src/types/vehicle.ts:1-7 | every state's text parses back to it |
| ApiClient.Failure | src/services/apiClient.ts:117-123 | the catch-block response: not successful, no data, no message, the error text |
| ApiClient.IsJsonContentType | src/services/apiClient.ts:93-94 | only a present header at least as long as `application/json` passes; any header starting with it passes |
| ApiClient.NonJsonError | src/services/apiClient.ts:100 | the message names the non-JSON response and carries the status |
| ApiClient.IsOk | src/services/apiClient.ts:107 | an accepted status is a three-digit number starting with 2 |
| ApiClient.HttpErrorText | src/services/apiClient.ts:108 | the body's truthy string message, else a text starting "HTTP " that carries the status |
| ApiClient.AuthHeader | src/services/apiClient.ts:57-65 | an `Authorization: Bearer <token>` entry exactly when a non-empty token was read; nothing on a failed read |
| ApiClient.AuthHeaderCarriesToken | src/services/apiClient.ts:60 | the bearer header carries exactly the stored token, and none when none is usable |
| ApiClient.RequestHeaders | src/services/apiClient.ts:78-86 | defaults, auth header, caller headers merged; later sources override earlier ones key by key |
| ApiClient.StoredTokenReachesRequest | src/services/apiClient.ts:76-84 | a stored token reaches the request as bearer header beside the JSON content type |
| ApiClient.MakeRequest | src/services/apiClient.ts:70-124 | never raises; success exactly for a parsed JSON body with a 2xx status and a JSON content type; failures carry an error and no data |
| ApiClient.NonJsonResponseFails | src/services/apiClient.ts:93-101 | a non-JSON content type fails with "Server returned non-JSON response: <status>", whatever the status |
| ApiClient.ErrorStatusFails | src/services/apiClient.ts:107-109 | a non-2xx JSON reply fails with the body's message, else "HTTP <status>" |
| ApiClient.OkResponseSucceeds | src/services/apiClient.ts:112-116 | a 2xx JSON reply succeeds with the body's `data` when truthy, else the whole body, and the body's message |
| ApiClient.UnparseableBodyFails | src/services/apiClient.ts:103 | a JSON response whose body does not parse fails with the parser's error text and no data |
| ApiClient.RejectedFetchFails | src/services/apiClient.ts:117-123 | a rejected fetch fails with the error's message or "Unknown error" |
| ApiClient.NotFoundText | src/services/apiClient.ts:108 | a JSON 404 without message reads "HTTP 404" |
| ApiClient.RefreshRequestBody | src/services/apiClient.ts:150-161 | a refresh request is sent exactly when a non-empty refresh token is stored |
| ApiClient.RefreshToken | src/services/apiClient.ts:148-167 | with a token, the server's reply; without, "No refresh token available"; a failed read, its message or "Token refresh failed" |
| ApiClient.RefreshWithoutTokenSendsNothing | src/services/apiClient.ts:151-153 | without a token the result is a failure independent of any server reply |
| ApiClient.GetUserProfile | src/services/apiClient.ts:173-176 | the truthy response data, else `{user: {}}` |
| ApiClient.FailedProfileGivesEmptyUser | src/services/apiClient.ts:174-175 | a failed profile request yields an empty user object rather than raising |
| ShiftService.PathsNameTheirEstablishment | src/services/shiftService.ts:12-15 | the establishment id can be read back from the shift path (and from the close path, line 85) |
| ShiftService.GetEstablishmentShift | src/services/shiftService.ts:9-39 | a shift exactly for a successful response with truthy data; `null` for other responses and for a 404 error; any other error raised again unchanged |
| ShiftService.NoShiftIsNotAnError | src/services/shiftService.ts:21-36 | no normalised response and no 404 error raises |
| ShiftService.CreateShift | src/services/shiftService.ts:44-77 | returns the data exactly for a successful response with truthy data |
| ShiftService.CreateFailureMessage | src/services/shiftService.ts:56-65 | a failure naming 404 raises "ENDPOINT_NOT_AVAILABLE"; any other starts with "Error al crear el turno: " |
| ShiftService.CreateCatch | src/services/shiftService.ts:69-75 | always rethrows: the unavailable message for 404, non-JSON or "ENDPOINT_NOT_AVAILABLE", else the error itself |
| ShiftService.CreateShiftUnavailable | src/services/shiftService.ts:56-74 | a failed response whose error names 404 or non-JSON ends as the unavailable message |
| ShiftService.CreateShiftOtherFailure | src/services/shiftService.ts:62-75 | any other failure raises "Error al crear el turno: " with the error or "Respuesta inválida" |
| ShiftService.EndShift | src/services/shiftService.ts:82-102 | returns the data exactly for a successful response with truthy data |
| ShiftService.EndCatch | src/services/shiftService.ts:94-100 | always rethrows: the unavailable message for 404 or non-JSON, else the error itself |
| ShiftService.EndShiftFailureIsGeneric | src/services/shiftService.ts:89-98 | every failed close response raises "Error al cerrar el turno" |
| ShiftService.EndShiftRejectedError | src/services/shiftService.ts:94-100 | a raised error becomes the unavailable message exactly when it names 404 or non-JSON |
| ShiftService.NonJsonEndpoint | src/services/shiftService.ts:56-98 | through the client, a non-JSON endpoint makes opening "unavailable" and closing the generic error |
| ShiftService.NotFoundEndpoint | src/services/shiftService.ts:56-74 | through the client, a JSON 404 without message makes opening "unavailable" |
| UseShift.UserMessage | src/hooks/useShift.ts:57-65 | an `Error` whose message mentions the unavailable service gives the unavailable message, any other `Error` its own message; non-`Error` values the default |
| UseShift.UnavailableHasMarker | src/hooks/useShift.ts:60-61 | the unavailable message contains the phrase the hook looks for |
| UseShift.UserMessageKeepsMeaning | src/hooks/useShift.ts:88-96 | the shown message mentions the service exactly when the error did; other messages pass unchanged; applying it twice changes nothing |
| UseShift.ShiftName | src/hooks/useShift.ts:41 | the name is the date, `" - "`, the establishment id, `" - "` and the period, each at its position |
| UseShift.ShiftNameDeterminesParts | src/hooks/useShift.ts:41 | for one date and ids of one length, equal names exactly when establishment and period are equal |
| UseShift.FetchShiftStep | src/hooks/useShift.ts:11-32 | no change without an establishment; else not loading and the active shift with no error, or the old shift with the error's message |
| UseShift.StartShiftStep | src/hooks/useShift.ts:34-74 | succeeds exactly for a created shift with an `_id`, then shows it; a failure keeps the shift, sets the error and alerts it |
| UseShift.StartOutcome | src/hooks/useShift.ts:43-55 | returns exactly a created shift carrying a truthy `_id`, the service's data; a shift without one gives "Respuesta inválida del servidor"; a service error passes through |
| UseShift.EndShiftStep | src/hooks/useShift.ts:76-105 | succeeds exactly for a closed shift, then shows none; a failure keeps the shift, sets the error and alerts it |
| UseShift.StartShiftOnNonJsonEndpoint | src/hooks/useShift.ts:56-70 | a non-JSON shift endpoint shows and alerts the unavailable message |
| UseShift.StartShiftWithoutId | src/hooks/useShift.ts:49-55 | a created shift without `_id` gives "Respuesta inválida del servidor" |
| UseShift.EndShiftOnFailedResponse | src/hooks/useShift.ts:83-98 | a failed close response shows "Error al cerrar el turno" |
| UseShift.StartThenEnd | src/hooks/useShift.ts:43-86 | opening then closing successfully leaves no shift and no error |
| UseShift.ShiftHook.constructor | src/hooks/useShift.ts:7-9 | no shift, not loading, no error |
| UseShift.ShiftHook.FetchShift | src/hooks/useShift.ts:11-32 | the new state is `FetchShiftStep` of the old |
| UseShift.ShiftHook.StartShift | src/hooks/useShift.ts:34-74 | the new state, result and alerts are `StartShiftStep`'s; the body sent names the establishment, period and shift name |
| UseShift.ShiftHook.EndShift | src/hooks/useShift.ts:76-105 | the new state, result and alerts are `EndShiftStep`'s |
| ShiftMutations.Invalidate | src/hooks/useAddShift.ts:14-16 | exactly the queries under the prefix become stale, their data kept; the others are unchanged |
| ShiftMutations.InvalidateIdempotent | src/hooks/useAddShift.ts:14-16 | invalidating twice equals invalidating once |
| ShiftMutations.ShiftInvalidationCoversEveryEstablishment | src/hooks/useAddShift.ts:13-16 | the `["shift"]` prefix reaches every establishment's shift read and nothing outside it |
| ShiftMutations.Settled | src/hooks/useAddShift.ts:11-12 | a success whose body is `null` becomes an error without status (reading `nombre` of null throws); every other outcome is kept |
| ShiftMutations.React | src/hooks/useAddShift.ts:14-16 | the same query keys; unchanged without invalidation; with it, every shift query stale and its data kept |
| ShiftMutations.NullBodyIsAnError | src/hooks/useEndShift.ts:10-11 | a `null` success body makes both hooks show "Hubo un Error" and leaves the cache unchanged |
| ShiftMutations.AddShiftRequest | src/services/shiftServiceNew.ts:36-39 | the body is sent unchanged to `/api/turnos` |
| ShiftMutations.EndShiftRequest | src/services/shiftServiceNew.ts:41-44 | no body; the path names exactly the establishment |
| ShiftMutations.AddShiftReaction | src/hooks/useAddShift.ts:11-21 | invalidates exactly on success with a non-null body; the success alert shows the shift name, every other outcome the fixed error alert |
| ShiftMutations.EndShiftReaction | src/hooks/useEndShift.ts:10-30 | invalidates on success with a non-null body or on a 400; a null body gets the generic error alert |
| ShiftMutations.EndInvalidatesWheneverAddDoes | src/hooks/useEndShift.ts:17-30 | closing invalidates whenever opening does, and additionally exactly on a 400 |
| ShiftMutations.FailedMutationLeavesCache | src/hooks/useEndShift.ts:17-29 | a failure other than a 400 close leaves the cache as it was |
| ShiftMutations.QueryClient.constructor | src/hooks/useAddShift.ts:7 | the client holds the given cache |
| ShiftMutations.QueryClient.InvalidateQueries | src/hooks/useAddShift.ts:14-16 | the cache becomes `Invalidate` of the old cache |
| ShiftMutations.ShiftMutationHooks.constructor | src/hooks/useAddShift.ts:7 | both hooks share the given client; no alerts yet |
| ShiftMutations.ShiftMutationHooks.AddShift | src/hooks/useAddShift.ts:9-22 | sends `AddShiftRequest`, applies `AddShiftReaction` to the shared cache and appends its alert |
| ShiftMutations.ShiftMutationHooks.EndShift | src/hooks/useEndShift.ts:8-31 | sends `EndShiftRequest`, applies `EndShiftReaction` to the shared cache and appends its alert |
| AppStore.LoggedOut | src/store/appStore.ts:51-56 | no user, no establishment, not authenticated, no error; loading, language and theme kept |
| AppStore.LogoutIdempotent | src/store/appStore.ts:51-58 | logging out twice is logging out once; the initial state is logged out |
| AppStore.Partialize | src/store/appStore.ts:63-69 | the persisted record holds exactly the user, establishment, authentication flag, language and theme |
| AppStore.Rehydrate | src/store/appStore.ts:60-69 | the loaded state persists back to the same record, not loading and without error |
| AppStore.PartializeKeepsExactlyFiveFields | src/store/appStore.ts:63-69 | two states persist alike exactly when they agree on the five persisted fields |
| AppStore.PersistRoundTrip | src/store/appStore.ts:60-69 | persist then load gives the state with loading and error at initial values; persisting again gives the same record |
| AppStore.Store.constructor | src/store/appStore.ts:20-33 | the store starts at the initial state (Spanish, dark theme) |
| AppStore.Store.SetUser | src/store/appStore.ts:35 | only `user` changes |
| AppStore.Store.SetEstablishment | src/store/appStore.ts:37 | only `establishment` changes |
| AppStore.Store.SetAuthenticated | src/store/appStore.ts:39 | only `isAuthenticated` changes |
| AppStore.Store.SetLoading | src/store/appStore.ts:41 | only `isLoading` changes |
| AppStore.Store.SetError | src/store/appStore.ts:43 | only `error` changes |
| AppStore.Store.SetLanguage | src/store/appStore.ts:45 | only `language` changes |
| AppStore.Store.SetTheme | src/store/appStore.ts:47 | only `theme` changes |
| AppStore.Store.ClearError | src/store/appStore.ts:49 | only `error` changes, to none |
| AppStore.Store.Logout | src/store/appStore.ts:51-56 | the state becomes `LoggedOut` of the old |
| AppStore.Store.Reset | src/store/appStore.ts:58 | the state becomes the initial state |
| AppStore.Store.Snapshot | src/store/appStore.ts:63-69 | loading the persisted record gives the state with loading and error reset |
| AuthGuard.Guard | src/components/AuthGuard.tsx:12-30 | redirects to `/auth` exactly when not loading and not authenticated; renders children exactly when not loading and authenticated |
| AuthGuard.GuardOutcomesExclusive | src/components/AuthGuard.tsx:12-30 | never both redirects and renders; idle exactly while loading |
| Auth.ClearKeys | src/services/authService.ts:275-285 | the store loses exactly the three session keys; other entries are kept |
| Auth.UserValue | src/services/authService.ts:53-56 | JSON `null` and an absent user are both no user; any other value is kept |
| Auth.InitializeRestores | src/services/authService.ts:51-63 | a stored token and parseable user data restore an authenticated record from the store, store unchanged |
| Auth.InitializeDropsCorruptData | src/services/authService.ts:64-72 | unparseable user data clears the three keys, only the loading flag changes; a second run changes nothing more |
| Auth.InitializeWithoutSession | src/services/authService.ts:70-78 | without token or user data, or on a failed read, only the loading flag moves (true then false) |
| Auth.InitializeStep | src/services/authService.ts:40-79 | two notifications, ending not loading; restoring means authenticated with the stored, non-empty token and the store unchanged; otherwise only the loading flag moves |
| Auth.LoginSucceeds | src/services/authService.ts:93-131 | a reply with a token signs in: token stored, authenticated, no refresh token, the profile's user or `null` when storing it failed |
| Auth.LoginFailsCleanly | src/services/authService.ts:132-144 | a failed login changes only the loading flag and reports the reply's error, the fixed text, or the rejection's message |
| Auth.LoginStep | src/services/authService.ts:84-145 | succeeds exactly for a successful reply with data and a token written; then authenticated with the stored token; else an error and only the loading flag moves |
| Auth.LoginAgainstNonJsonServer | src/services/authService.ts:132-136 | a non-JSON login reply reports the client's non-JSON text |
| Auth.LogoutStep | src/services/authService.ts:150-184 | not authenticated, no user, no token, no refresh token, not loading; the store loses exactly the three keys and keeps every other entry's value; one announcement of the new record |
| Auth.EmptyTokenSignsIn | src/services/authService.ts:92-114 | a successful login reply with an empty token signs in: authenticated, with the empty token adopted and stored |
| Auth.EmptyTokenRefreshes | src/services/authService.ts:195-210 | a successful refresh reply with an empty token keeps the record authenticated with the empty token |
| Auth.RefreshAdoptsNewPair | src/services/authService.ts:195-210 | a successful refresh stores and adopts the new pair and changes nothing else |
| Auth.RefreshFailureLogsOut | src/services/authService.ts:211-220 | every failed refresh, including one without a stored refresh token, is a logout |
| Auth.RefreshStep | src/services/authService.ts:189-221 | one notification; success needs a stored refresh token and a written pair, then both tokens are stored and adopted; failure signs out and clears the keys |
| Auth.LoginThenLogoutPurges | src/services/authService.ts:84-184 | after any login and a logout, none of the three keys remains and the record is signed out |
| Auth.StepsKeepConsistent | src/services/authService.ts:40-221 | every transition keeps "authenticated implies a token is present" (possibly empty) in the final and every announced record |
| Auth.Fanout | src/services/authService.ts:290-298 | each listener, in order, receives the record once, even after one throws |
| Auth.IndexOf | src/services/authService.ts:257 | the first position of the listener, present exactly when subscribed |
| Auth.UnsubscribeRemovesOne | src/services/authService.ts:256-261 | removes exactly one occurrence when subscribed, nothing otherwise, and keeps the other listeners in order |
| Auth.SubscribeThenUnsubscribe | src/services/authService.ts:254-262 | subscribe then unsubscribe restores the listener list |
| Auth.AuthService.constructor | src/services/authService.ts:20-28 | signed-out record, no listeners |
| Auth.AuthService.GetAuthState | src/services/authService.ts:226-228 | a copy of the record |
| Auth.AuthService.Subscribe | src/services/authService.ts:254-255 | appends the listener |
| Auth.AuthService.Unsubscribe | src/services/authService.ts:256-261 | the list becomes `Unsubscribed` of the old |
| Auth.AuthService.NotifyListeners | src/services/authService.ts:290-298 | the delivery log grows by `Fanout` of the listeners and the current record |
| Auth.AuthService.SetLoading | src/services/authService.ts:267-270 | only the loading flag changes, then one announcement |
| Auth.AuthService.ClearStoredData | src/services/authService.ts:275-285 | the store becomes `ClearKeys` of the old |
| Auth.AuthService.Initialize | src/services/authService.ts:40-79 | record, store, result and deliveries are those of `InitializeStep` |
| Auth.AuthService.Login | src/services/authService.ts:84-145 | record, store, result and deliveries are those of `LoginStep` |
| Auth.AuthService.Logout | src/services/authService.ts:150-184 | record, store and deliveries are those of `LogoutStep` |
| Auth.AuthService.RefreshAuthToken | src/services/authService.ts:189-221 | record, store, result and deliveries are those of `RefreshStep` |
| Seqs.Filter | src/components/VehicleList.tsx:29-31 | no longer than the input, keeps exactly the elements passing the test |
| Seqs.FilterIsSubsequence | src/components/VehicleList.tsx:29-36 | a filter keeps the order of what it keeps |
| Seqs.FilterFilter | src/components/VehicleList.tsx:29-36 | filtering twice is filtering once by both tests |
| Seqs.FilterKeepsAll | src/components/VehicleList.tsx:34-36 | a test everything passes keeps the whole sequence |
| Seqs.FilterSameTest | src/components/VehicleList.tsx:34-36 | filters by tests that agree everywhere agree |
| Seqs.Insert | src/components/VehicleGroupTags.tsx:18-34 | one longer, the input plus the element as a multiset |
| Seqs.SortBy | src/components/VehicleGroupTags.tsx:18-34 | a permutation of the input (sortedness and stability in `SortByFacts` and `SortByStable`) |
| Seqs.InsertFacts | src/components/VehicleGroupTags.tsx:18-22 | insertion into a sorted sequence adds the element and stays sorted |
| Seqs.SortByFacts | src/components/VehicleGroupTags.tsx:18-34 | the sort returns a permutation of its input, ascending by key |
| Seqs.InsertStable | src/components/VehicleGroupTags.tsx:18-34 | insertion places the element before the elements of its own key, the step the stability of the sort rests on |
| Seqs.SortByStable | src/components/VehicleGroupTags.tsx:24-34 | elements with equal keys keep their input order |
| VehicleList.LayerOf | src/components/VehicleList.tsx:39-47 | red for arrived/parked, yellow for requested/on the way, green for delivered/invoiced |
| VehicleList.Bucket | src/components/VehicleList.tsx:39-47 | every vehicle in a group belongs to it |
| VehicleList.ShiftFilter | src/components/VehicleList.tsx:29-31 | keeps every vehicle not delivered, and a delivered one exactly when its shift is the active one |
| VehicleList.PlateFilter | src/components/VehicleList.tsx:34-36 | an empty search keeps everything; a plate equal to the search up to case is kept |
| VehicleList.FilteredByShift | src/components/VehicleList.tsx:29-31 | an ordered selection of the list holding every vehicle not delivered, each passing the shift test |
| VehicleList.Searched | src/components/VehicleList.tsx:29-36 | no longer than the list; each vehicle passes the shift test and its lower-cased plate contains the lower-cased search |
| VehicleList.BucketsPartition | src/components/VehicleList.tsx:39-47 | the three groups together hold each vehicle exactly as often as the list; sizes add up |
| VehicleList.ShiftFilterWithoutShift | src/components/VehicleList.tsx:29-31 | with no active shift, a delivered vehicle stays only when it has no shift |
| VehicleList.SearchedIsOrderedSelection | src/components/VehicleList.tsx:29-36 | the searched list is the ordered selection passing both filters |
| VehicleList.EmptySearchKeepsAll | src/components/VehicleList.tsx:34-36 | an empty search keeps the whole shift-filtered list |
| VehicleList.SearchIgnoresCase | src/components/VehicleList.tsx:34-36 | the search does not depend on the case of its text |
| VehicleList.InitialShown | src/components/VehicleList.tsx:55-65 | empty exactly when nothing is left; else one of the three groups |
| VehicleList.InitialShownPreference | src/components/VehicleList.tsx:55-65 | red only when no yellow, green only when neither |
| VehicleList.ListView.constructor | src/components/VehicleList.tsx:25-26 | yellow selected, nothing shown |
| VehicleList.ListView.HandleLayerChange | src/components/VehicleList.tsx:49-52 | selects the group and shows the given vehicles |
| VehicleList.ListView.InitialListEffect | src/components/VehicleList.tsx:55-65 | shows `InitialShown`; leaves the selection alone |
| VehicleList.SelectionCanDisagreeWithList | src/components/VehicleList.tsx:49-65 | one arrived vehicle: the red group is shown while yellow may stay selected |
| VehicleGroupTags.SortKey | src/components/VehicleGroupTags.tsx:19-20 | the creation date when non-empty, else the arrival time |
| VehicleGroupTags.SortedBucket | src/components/VehicleGroupTags.tsx:24-34 | a permutation of the group, ascending by time |
| VehicleGroupTags.TagOf | src/components/VehicleGroupTags.tsx:55-75 | the count is the group size, the state lies in the group, selected exactly for the selected group |
| VehicleGroupTags.SortedBucketFacts | src/components/VehicleGroupTags.tsx:18-34 | a sorted group is a permutation of its filtered group, ascending by time, stable, all of that group |
| VehicleGroupTags.SortedBucketsPartition | src/components/VehicleGroupTags.tsx:24-34 | the three sorted groups together hold the list exactly |
| VehicleGroupTags.Tags | src/components/VehicleGroupTags.tsx:55-75 | three tags |
| VehicleGroupTags.TagsFacts | src/components/VehicleGroupTags.tsx:55-75 | counts equal group sizes and sum to the list length; each tag's state lies in its group; exactly the selected group's tag is selected |
| VehicleGroupTags.PressedGroup | src/components/VehicleGroupTags.tsx:43-51 | pressing a group passes that group and its vehicles, sorted |
| VehicleGroupTags.MountCall | src/components/VehicleGroupTags.tsx:37-41 | a call exactly when the yellow group is non-empty, with the sorted yellow group |
| VehicleGroupTags.MountCommit | src/components/VehicleGroupTags.tsx:37-41 | the mount call then the list's effect: selection and shown list afterwards |
| VehicleGroupTags.MountedYellowIsUnsorted | src/components/VehicleGroupTags.tsx:37-41 | the list's effect then shows the unsorted yellow group, the same vehicles |
| VehicleTag.TagColorFollowsLayer | src/components/VehicleTag.tsx:43-57 | a known state gets its group's colour, any other text grey |
| VehicleTag.TagColor | src/components/VehicleTag.tsx:43-57 | one of the four colours; grey exactly for an unknown state text |
| VehicleTag.LayerColorsDistinct | src/components/VehicleTag.tsx:43-57 | the three group colours differ and none is grey |
| VehicleTag.Label | src/components/VehicleTag.tsx:37 | the display text when non-empty, else the state's name |
| VehicleTag.Quantity | src/components/VehicleTag.tsx:38 | the quantity, or 0 when absent |
| VehicleCard.CardAgreesWithTag | src/components/VehicleCard.tsx:92-106 | the card's tone and the tag's colour classify every state text alike (error/red, warning/yellow, success/green, secondary/grey) |
| VehicleCard.CardTone | src/components/VehicleCard.tsx:92-106 | secondary exactly for an unknown state text |
| VehicleCard.DisplayHour | src/components/VehicleCard.tsx:14-31 | the last entry's formatted date when it has one; else the arrival time if it has a colon; else "--:--" |
| VehicleCard.OnlyLastEntryCounts | src/components/VehicleCard.tsx:15-23 | entries before the last never matter |
| VehicleCard.KeyText | src/components/VehicleCard.tsx:67 | "--" exactly when the key number is absent, else its text |
| VehicleCard.BrandLine | src/components/VehicleCard.tsx:75-79 | no line for an absent or empty brand; the text itself, or the record's description |
| UseVehicles.Prepend | src/hooks/useVehicles.ts:47 | one longer, the new vehicle first, the old list behind it |
| UseVehicles.UpdateById | src/hooks/useVehicles.ts:65-69 | same length; vehicles with the id get the new state and exit time; all others unchanged |
| UseVehicles.Updated | src/hooks/useVehicles.ts:65-69 | the id never changes; a matching vehicle gets the new state and exit time and nothing else; others are unchanged |
| UseVehicles.UpdateTouchesOnlyItsId | src/hooks/useVehicles.ts:65-69 | vehicles with other ids stay, in order; ids never change; matching vehicles end in the new state |
| UseVehicles.UpdateIdempotent | src/hooks/useVehicles.ts:65-69 | applying an update twice equals once; an unknown id changes nothing |
| UseVehicles.UpdatesCommute | src/hooks/useVehicles.ts:65-69 | updates of different vehicles commute |
| UseVehicles.AddThenUpdate | src/hooks/useVehicles.ts:47-69 | a vehicle just added and updated by its id is first, in the new state |
| UseVehicles.Fail | src/hooks/useVehicles.ts:20-25 | a failure keeps vehicles and brands, ends loading, records the message or default |
| UseVehicles.FetchVehiclesStep | src/hooks/useVehicles.ts:12-26 | no change without an establishment; else the fetched list with no error, or the old list with the error |
| UseVehicles.FetchBrandsStep | src/hooks/useVehicles.ts:28-40 | the fetched brands with no error, or the old ones with the error |
| UseVehicles.AddVehicleStep | src/hooks/useVehicles.ts:42-56 | success prepends and returns the vehicle; failure returns nothing and keeps the list |
| UseVehicles.UpdateStateStep | src/hooks/useVehicles.ts:58-79 | true exactly when the request succeeded, then `UpdateById`; failure keeps the list |
| UseVehicles.SearchPlateStep | src/hooks/useVehicles.ts:81-94 | returns the service's answer or nothing; never touches the lists |
| UseVehicles.FailuresKeepLists | src/hooks/useVehicles.ts:20-22 | every failing request keeps vehicles and brands and records an error |
| UseVehicles.LoadingSettles | src/hooks/useVehicles.ts:23-78 | every request made ends with loading false |
| UseVehicles.ThrownMessageWins | src/hooks/useVehicles.ts:73 | an `Error`'s message wins over the default |
| UseVehicles.VehiclesHook.constructor | src/hooks/useVehicles.ts:7-10 | empty lists, not loading, no error |
| UseVehicles.VehiclesHook.FetchVehicles | src/hooks/useVehicles.ts:12-26 | the new state is `FetchVehiclesStep` of the old |
| UseVehicles.VehiclesHook.FetchBrands | src/hooks/useVehicles.ts:28-40 | the new state is `FetchBrandsStep` of the old |
| UseVehicles.VehiclesHook.AddVehicle | src/hooks/useVehicles.ts:42-56 | state and result are `AddVehicleStep`'s |
| UseVehicles.VehiclesHook.UpdateVehicleState | src/hooks/useVehicles.ts:58-79 | state and result are `UpdateStateStep`'s |
| UseVehicles.VehiclesHook.SearchPlate | src/hooks/useVehicles.ts:81-94 | state and result are `SearchPlateStep`'s |
| UseVehicles.FetchEstablishmentsStep | src/hooks/useVehicles.ts:124-145 | loading ends false; a raised error is recorded with the lists kept; an answered call clears the error |
| UseVehicles.AutoSelectOnlyWhenNone | src/hooks/useVehicles.ts:131-138 | the selection changes exactly when none was made and a non-empty list arrived, to its first entry; the list is replaced exactly on success with data |
| UseVehicles.EstablishmentsHook.constructor | src/hooks/useVehicles.ts:119-122 | empty list, nothing selected |
| UseVehicles.EstablishmentsHook.Select | src/hooks/useVehicles.ts:120 | only the selection changes |
| UseVehicles.EstablishmentsHook.FetchEstablishments | src/hooks/useVehicles.ts:124-145 | the new state is `FetchEstablishmentsStep` of the old |

## Left out

- **Network, storage and JSON text.** `fetch`, the axios instance of `src/services/shiftServiceNew.ts`, the persisted key-value store's I/O and `JSON.parse`/`JSON.stringify` are parameters or outcome values. The client's base URL, its timeout and the request methods and bodies are not modelled; only the paths and bodies of the two shift mutations are.
- **Thin client wrappers.** `login`, `logout`, `getEstablishments`, `getVehicles`, the notification calls and the other one-line wrappers of `src/services/apiClient.ts` appear only as the replies they return. `src/services/vehicleService.ts` is not part of this model; its answers are the `Fetched` inputs of the vehicle hooks.
- **Concurrency.** Interleavings of `Promise.all`, of overlapping requests and of React re-renders are not modelled. Each operation runs to completion; the three reads of `initialize` fail or succeed together.
- **Intermediate render states.** Loading `true` is shown between a request's start and its end. The hooks' steps state only the final state. The session service's announced snapshots do include the loading one.
- Auth.ClearKeys: assumes the three removals succeed; the code swallows a failing removal, and the keys that failed would then remain.
- **Session service getters.** `getInstance`, `isAuthenticated()`, `getCurrentUser()` and `getToken()` are read-only views of the record and are covered by `GetAuthState`. Login credentials are not modelled, and the logout request's reply is ignored, as the code ignores it.
- **User values.** `null` and `undefined` users are both `None`, including stored user data that parses to `null` and a profile whose `user` is `null`. The login reply's `token` is assumed to be a string.
- **Signature mismatch.** `shiftService` calls the private `makeRequest` with a method string where request options are expected. Its requests are modelled against the normalised reply, not the request sent.
- **React Query, zustand and React.** React Query's retries, refetch scheduling, `isPending` and the rethrow of `mutateAsync` after `onError` are not modelled. Neither are zustand's storage name, its JSON storage and its asynchronous rehydration; rehydration is the persisted fields merged over the initial state. React's effect scheduling beyond the mount commit of the group tags is also not modelled.
- **Dates, numbers and text.** Date parsing is a `timeOf` parameter returning an integer, so the `NaN` comparisons of invalid dates are not modelled. Time formatting (`formatTime`) and the date in shift names (`today`) are parameters. JSON numbers and key numbers are integers. Lower-casing covers ASCII letters only. The sort is modelled as stable insertion sort, the ordering ECMAScript 2019 requires.
- UseVehicles.FetchEstablishmentsStep: reads the current selection, while the code's callback reads the selection captured when it was last created; the two differ only between a selection change and the next render.
- **UI.** Alerts are recorded as title and message; screens, navigation, styles, the tag's scale and opacity, the card's VIP badge, model and colour lines and console logging are not modelled. `src/hooks/useAuth.ts`, `src/store/shiftStore.ts`, the notification service and hook, `src/components/ShiftButton*.tsx`, `src/components/EstablishmentSelector.tsx` and `app/*.tsx` are not part of this model.

=== FILE: api_client.dfy ===
/** The HTTP client (src/services/apiClient.ts): the bearer header taken from
    the stored token, the header merge, the normalisation of every raw HTTP
    outcome into one tagged `ApiResponse`, the refresh-token guard and the
    profile fallback. `fetch` and the key-value store are inputs. */
module ApiClient {
  import opened Common
  import opened JsonValue

  /** The normalised result of every request: `success` with `data` and
      `message`, or a failure with an `error` text. `data` is `None` when the
      field is absent. */
  datatype ApiResponse<T> = ApiResponse(success: bool, data: Option<T>, message: Option<Json>, error: Option<string>)

  /** What an awaited client call produced: a normalised response, or a
      rejection (for instance a failing write to the key-value store). */
  datatype Call<T> = Answered(reply: ApiResponse<T>) | Raised(thrown: Thrown)

  /** The failure response `makeRequest`'s catch block builds. */
  function Failure<T>(error: string): (r: ApiResponse<T>)
    ensures !r.success && r.data.None? && r.message.None? && r.error == Some(error)
  {
    ApiResponse(false, None, None, Some(error))
  }

  // ---------------------------------------------------------------------
  // Headers

  /** The outcome of reading one key of the key-value store. */
  datatype StoredValue = Read(value: Option<string>) | ReadFailed(thrown: Thrown)

  const DefaultHeaders: map<string, string> := map["Content-Type" := "application/json", "Accept" := "application/json"]

  /** `getAuthHeader`: a bearer header when a non-empty token is stored; an
      empty header set when none is stored or the read fails. */
  function AuthHeader(stored: StoredValue): (h: map<string, string>)
    ensures h.Keys <= {"Authorization"}
    ensures "Authorization" in h <==> stored.Read? && NonEmpty(stored.value)
    ensures "Authorization" in h ==> h["Authorization"] == "Bearer " + stored.value.value
  {
    if stored.Read? && NonEmpty(stored.value) then map["Authorization" := "Bearer " + stored.value.value]
    else map[]
  }

  /** The token a bearer header carries. */
  function BearerToken(h: map<string, string>): Option<string> {
    if "Authorization" in h && |h["Authorization"]| >= 7 && h["Authorization"][..7] == "Bearer "
    then Some(h["Authorization"][7..]) else None
  }

  /** The header carries exactly the stored token, and nothing when no token
      can be used. */
  lemma AuthHeaderCarriesToken(stored: StoredValue)
    ensures stored.Read? && NonEmpty(stored.value) ==> BearerToken(AuthHeader(stored)) == stored.value
    ensures !(stored.Read? && NonEmpty(stored.value)) ==> BearerToken(AuthHeader(stored)).None?
  {
    if stored.Read? && NonEmpty(stored.value) {
      var h := "Bearer " + stored.value.value;
      assert h[..7] == "Bearer " && h[7..] == stored.value.value;
    }
  }

  /** The headers of a request: defaults, then the auth header, then the
      caller's headers, each later one overriding the earlier ones. */
  function RequestHeaders(auth: map<string, string>, caller: map<string, string>): (h: map<string, string>)
    ensures h.Keys == DefaultHeaders.Keys + auth.Keys + caller.Keys
    ensures forall k :: k in caller ==> h[k] == caller[k]
    ensures forall k :: k in auth && k !in caller ==> h[k] == auth[k]
    ensures forall k :: k in DefaultHeaders && k !in auth && k !in caller ==> h[k] == DefaultHeaders[k]
  {
    DefaultHeaders + auth + caller
  }

  /** Without caller headers a stored token always reaches the request as a
      bearer header, next to the JSON content type. */
  lemma StoredTokenReachesRequest(token: string)
    requires token != ""
    ensures var h := RequestHeaders(AuthHeader(Read(Some(token))), map[]);
            h["Authorization"] == "Bearer " + token && h["Content-Type"] == "application/json"
  {
  }

  // ---------------------------------------------------------------------
  // makeRequest

  /** What the body of a response turned into when read as JSON. */
  datatype Body = Parsed(json: Json) | Unparseable(syntaxError: string)

  /** What `fetch` produced: a rejection, or a response with its status, its
      `content-type` header and its body. */
  datatype HttpOutcome =
    | FetchRejected(thrown: Thrown)
    | Responded(status: nat, contentType: Option<string>, body: Body)

  /** `response.ok` */
  /** `response.ok`: a status in the 2xx class, which prints as three
      digits beginning with 2. */
  predicate IsOk(status: nat)
    ensures IsOk(status) ==> |NatToString(status)| == 3 && NatToString(status)[0] == '2'
  {
    OkStatusDigits(status);
    200 <= status <= 299
  }

  /** A 2xx status has three digits, the first a 2. */
  lemma OkStatusDigits(status: nat)
    ensures 200 <= status <= 299 ==> |NatToString(status)| == 3 && NatToString(status)[0] == '2'
  {
    if 200 <= status <= 299 {
      assert NatToString(status / 100) == [DigitChar(2)];
      assert NatToString(status / 10) == NatToString(status / 100) + [DigitChar(status / 10 % 10)];
      assert NatToString(status) == NatToString(status / 10) + [DigitChar(status % 10)];
    }
  }

  /** The content-type test: the header includes "application/json", so a
      type that begins with it is accepted whatever parameters follow. */
  predicate IsJsonContentType(contentType: Option<string>)
    ensures IsJsonContentType(contentType) ==> contentType.Some? && |contentType.value| >= |JsonMediaType|
    ensures contentType.Some? && OccursAt(contentType.value, JsonMediaType, 0) ==> IsJsonContentType(contentType)
  {
    contentType.Some? && Contains(contentType.value, JsonMediaType)
  }

  const JsonMediaType := "application/json"

  /** The message of a reply that is not JSON: it says so and names the
      status. */
  function NonJsonError(status: nat): (r: string)
    ensures Contains(r, "non-JSON")
    ensures Contains(r, NatToString(status))
  {
    var text := "Server returned non-JSON response: " + NatToString(status);
    assert OccursAt(text, "non-JSON", 16);
    assert OccursAt(text, NatToString(status), 35);
    text
  }

  /** `data?.message || "HTTP <status>"`, as the message of an `Error`: a
      string message passes through as it is; without a message the text
      names the status. */
  function HttpErrorText(body: Json, status: nat): (r: string)
    ensures TruthyField(Field(body, "message")) && Field(body, "message").value.JStr? ==> r == Field(body, "message").value.s
    ensures !TruthyField(Field(body, "message")) ==> Contains(r, NatToString(status)) && |r| >= 5 && r[..5] == "HTTP "
  {
    var message := Field(body, "message");
    if TruthyField(message) then Text(message.value)
    else
      var text := "HTTP " + NatToString(status);
      assert OccursAt(text, NatToString(status), 5);
      text
  }

  /** `makeRequest`: every outcome of `fetch` becomes a tagged response; the
      call never raises. */
  function MakeRequest(o: HttpOutcome): (r: ApiResponse<Json>)
    ensures r.success <==> o.Responded? && IsJsonContentType(o.contentType) && o.body.Parsed? && IsOk(o.status)
    ensures r.success ==> r.error.None? && r.data.Some?
    ensures !r.success ==> r.error.Some? && r.data.None? && r.message.None?
  {
    match o
    case FetchRejected(t) => Failure(MessageOr(t, "Unknown error"))
    case Responded(status, contentType, body) =>
      if !IsJsonContentType(contentType) then Failure(NonJsonError(status))
      else
        match body
        case Unparseable(syntaxError) => Failure(syntaxError)
        case Parsed(data) =>
          if !IsOk(status) then Failure(HttpErrorText(data, status))
          else
            var inner := Field(data, "data");
            ApiResponse(true, Some(if TruthyField(inner) then inner.value else data), Field(data, "message"), None)
  }

  /** A response without a JSON content type fails with the status in the
      text, whatever the status and the body. */
  lemma NonJsonResponseFails(status: nat, contentType: Option<string>, body: Body)
    requires !IsJsonContentType(contentType)
    ensures var r := MakeRequest(Responded(status, contentType, body));
            !r.success && r.error == Some(NonJsonError(status)) && Contains(r.error.value, "non-JSON")
  {
    var text := NonJsonError(status);
    assert text[16..24] == "non-JSON";
    assert OccursAt(text, "non-JSON", 16);
  }

  /** A JSON response with a status outside 200-299 fails with the body's
      message, or with "HTTP <status>" when it has none. */
  lemma ErrorStatusFails(status: nat, contentType: Option<string>, data: Json)
    requires IsJsonContentType(contentType) && !IsOk(status)
    ensures var r := MakeRequest(Responded(status, contentType, Parsed(data)));
            && !r.success
            && (TruthyField(Field(data, "message")) ==> r.error == Some(Text(Field(data, "message").value)))
            && (!TruthyField(Field(data, "message")) ==> r.error == Some("HTTP " + NatToString(status)))
  {
  }

  /** An ok JSON response succeeds; its data is the body's `data` field when
      that is truthy and the whole body otherwise; its message is the body's. */
  lemma OkResponseSucceeds(status: nat, contentType: Option<string>, data: Json)
    requires IsJsonContentType(contentType) && IsOk(status)
    ensures var r := MakeRequest(Responded(status, contentType, Parsed(data)));
            && r.success && r.error.None? && r.message == Field(data, "message")
            && (TruthyField(Field(data, "data")) ==> r.data == Field(data, "data"))
            && (!TruthyField(Field(data, "data")) ==> r.data == Some(data))
  {
  }

  /** A rejected `fetch` becomes a failure carrying the error's message, or
      "Unknown error" for a thrown value that is not an `Error`. */
  lemma RejectedFetchFails(t: Thrown)
    ensures var r := MakeRequest(FetchRejected(t));
            !r.success && r.error == Some(if t.ThrownError? then t.error.message else "Unknown error")
  {
  }

  /** A JSON response whose body does not parse fails with the parser's
      error text, whatever the status. */
  lemma UnparseableBodyFails(status: nat, contentType: Option<string>, syntaxError: string)
    requires IsJsonContentType(contentType)
    ensures var r := MakeRequest(Responded(status, contentType, Unparseable(syntaxError)));
            !r.success && r.error == Some(syntaxError) && r.data.None?
  {
  }

  /** A 404 answered without a message body reads "HTTP 404". */
  lemma NotFoundText(contentType: Option<string>)
    requires IsJsonContentType(contentType)
    ensures MakeRequest(Responded(404, contentType, Parsed(JObj(map[])))).error == Some("HTTP 404")
  {
    assert NatToString(404) == "404";
    assert HttpErrorText(JObj(map[]), 404) == "HTTP " + "404" == "HTTP 404";
  }

  // ---------------------------------------------------------------------
  // refreshToken and getUserProfile

  /** The body the refresh request sends, or None when no request is sent. */
  function RefreshRequestBody(stored: StoredValue): (b: Option<Json>)
    ensures b.Some? <==> stored.Read? && NonEmpty(stored.value)
  {
    if stored.Read? && NonEmpty(stored.value) then Some(JObj(map["refreshToken" := JStr(stored.value.value)]))
    else None
  }

  /** `refreshToken`: with a stored refresh token, the reply of the refresh
      request (`reply`); without one, a failure, and no request is sent. */
  function RefreshToken<T>(stored: StoredValue, reply: ApiResponse<T>): (r: ApiResponse<T>)
    ensures RefreshRequestBody(stored).Some? ==> r == reply
    ensures stored == Read(None) || stored == Read(Some("")) ==> r == Failure("No refresh token available")
    ensures stored.ReadFailed? ==> r == Failure(MessageOr(stored.thrown, "Token refresh failed"))
  {
    match stored
    case ReadFailed(t) => Failure(MessageOr(t, "Token refresh failed"))
    case Read(token) => if !NonEmpty(token) then Failure("No refresh token available") else reply
  }

  /** Without a usable refresh token the result does not depend on any
      server reply: no request is made. */
  lemma RefreshWithoutTokenSendsNothing<T>(stored: StoredValue, reply1: ApiResponse<T>, reply2: ApiResponse<T>)
    requires RefreshRequestBody(stored).None?
    ensures RefreshToken(stored, reply1) == RefreshToken(stored, reply2)
    ensures !RefreshToken(stored, reply1).success
  {
  }

  /** `getUserProfile`: the response data, or `{user: {}}` when it is absent. */
  function GetUserProfile(reply: ApiResponse<Json>): (r: Json)
    ensures reply.data.Some? && Truthy(reply.data.value) ==> r == reply.data.value
    ensures !(reply.data.Some? && Truthy(reply.data.value)) ==> r == JObj(map["user" := JObj(map[])])
  {
    if reply.data.Some? && Truthy(reply.data.value) then reply.data.value
    else JObj(map["user" := JObj(map[])])
  }

  /** A failed profile request does not raise: it yields an empty user
      object. */
  lemma FailedProfileGivesEmptyUser(o: HttpOutcome)
    requires !MakeRequest(o).success
    ensures Field(GetUserProfile(MakeRequest(o)), "user") == Some(JObj(map[]))
  {
  }
}

=== FILE: app_store.dfy ===
/** The application store (src/store/appStore.ts): one record of seven
    fields, actions that overwrite named fields, and the projection of it
    that is persisted. The user and the establishment are kept as opaque
    JSON records. */
module AppStore {
  import opened Common
  import opened JsonValue

  datatype Theme = Light | Dark

  /** The record the store holds. */
  datatype AppState = AppState(
    user: Option<Json>,
    establishment: Option<Json>,
    isAuthenticated: bool,
    isLoading: bool,
    error: Option<string>,
    language: string,
    theme: Theme)

  /** `initialState` */
  const Initial := AppState(None, None, false, false, None, "es", Dark)

  /** What `logout` leaves: no user, no establishment, not authenticated, no
      error; loading flag, language and theme as they were. */
  function LoggedOut(s: AppState): (r: AppState)
    ensures !r.isAuthenticated && r.user.None? && r.establishment.None? && r.error.None?
    ensures r.isLoading == s.isLoading && r.language == s.language && r.theme == s.theme
  {
    s.(user := None, establishment := None, isAuthenticated := false, error := None)
  }

  /** Logging out twice is logging out once, and a store reset to its
      initial state is already logged out. */
  lemma LogoutIdempotent(s: AppState)
    ensures LoggedOut(LoggedOut(s)) == LoggedOut(s)
    ensures LoggedOut(Initial) == Initial
  {
  }

  // ---------------------------------------------------------------------
  // Persistence

  /** The part of the state written to storage (`partialize`). */
  datatype Persisted = Persisted(
    user: Option<Json>,
    establishment: Option<Json>,
    isAuthenticated: bool,
    language: string,
    theme: Theme)

  function Partialize(s: AppState): (p: Persisted)
    ensures p.user == s.user && p.establishment == s.establishment && p.isAuthenticated == s.isAuthenticated
    ensures p.language == s.language && p.theme == s.theme
  {
    Persisted(s.user, s.establishment, s.isAuthenticated, s.language, s.theme)
  }

  /** A fresh store after loading a persisted record: the record's fields
      merged over the initial state. */
  function Rehydrate(p: Persisted): (s: AppState)
    ensures Partialize(s) == p
    ensures !s.isLoading && s.error.None?
  {
    Initial.(user := p.user, establishment := p.establishment, isAuthenticated := p.isAuthenticated,
             language := p.language, theme := p.theme)
  }

  /** Two states persist the same record exactly when they agree on the five
      persisted fields: the loading flag and the error are never stored. */
  lemma PartializeKeepsExactlyFiveFields(s: AppState, t: AppState)
    ensures Partialize(s) == Partialize(t) <==>
              s.user == t.user && s.establishment == t.establishment && s.isAuthenticated == t.isAuthenticated
              && s.language == t.language && s.theme == t.theme
    ensures Partialize(s.(isLoading := t.isLoading, error := t.error)) == Partialize(s)
  {
  }

  /** Persisting and loading back gives the state with the loading flag and
      the error at their initial values, and persisting that again gives the
      same record. */
  lemma PersistRoundTrip(s: AppState)
    ensures Rehydrate(Partialize(s)) == s.(isLoading := false, error := None)
    ensures Partialize(Rehydrate(Partialize(s))) == Partialize(s)
  {
  }

  // ---------------------------------------------------------------------
  // The store

  class Store {
    var user: Option<Json>
    var establishment: Option<Json>
    var isAuthenticated: bool
    var isLoading: bool
    var error: Option<string>
    var language: string
    var theme: Theme

    function State(): AppState
      reads this
    {
      AppState(user, establishment, isAuthenticated, isLoading, error, language, theme)
    }

    constructor()
      ensures State() == Initial
    {
      user := None;
      establishment := None;
      isAuthenticated := false;
      isLoading := false;
      error := None;
      language := "es";
      theme := Dark;
    }

    method SetUser(u: Option<Json>)
      modifies this
      ensures State() == old(State()).(user := u)
    {
      user := u;
    }

    method SetEstablishment(e: Option<Json>)
      modifies this
      ensures State() == old(State()).(establishment := e)
    {
      establishment := e;
    }

    method SetAuthenticated(b: bool)
      modifies this
      ensures State() == old(State()).(isAuthenticated := b)
    {
      isAuthenticated := b;
    }

    method SetLoading(b: bool)
      modifies this
      ensures State() == old(State()).(isLoading := b)
    {
      isLoading := b;
    }

    method SetError(e: Option<string>)
      modifies this
      ensures State() == old(State()).(error := e)
    {
      error := e;
    }

    method SetLanguage(l: string)
      modifies this
      ensures State() == old(State()).(language := l)
    {
      language := l;
    }

    method SetTheme(t: Theme)
      modifies this
      ensures State() == old(State()).(theme := t)
    {
      theme := t;
    }

    method ClearError()
      modifies this
      ensures State() == old(State()).(error := None)
    {
      error := None;
    }

    method Logout()
      modifies this
      ensures State() == LoggedOut(old(State()))
    {
      user := None;
      establishment := None;
      isAuthenticated := false;
      error := None;
    }

    method Reset()
      modifies this
      ensures State() == Initial
    {
      user := None;
      establishment := None;
      isAuthenticated := false;
      isLoading := false;
      error := None;
      language := "es";
      theme := Dark;
    }

    /** The record the persistence layer writes after any action. */
    function Snapshot(): (p: Persisted)
      reads this
      ensures Rehydrate(p) == State().(isLoading := false, error := None)
    {
      PersistRoundTrip(State());
      Partialize(State())
    }
  }
}

=== FILE: auth_guard.dfy ===
/** The route guard (src/components/AuthGuard.tsx): from the loading flag and
    the authentication flag, whether it redirects to the sign-in screen and
    what it renders. */
module AuthGuard {

  datatype Rendered = Nothing | Children

  /** Where the guard sends the user, when anywhere. */
  datatype Navigation = Stay | Redirect(path: string)

  datatype Decision = Decision(redirectTo: Navigation, rendered: Rendered)

  const SignInPath := "/auth"

  /** The effect and the render of the guard. */
  function Guard(isLoading: bool, isAuthenticated: bool): (d: Decision)
    ensures d.redirectTo.Redirect? <==> !isLoading && !isAuthenticated
    ensures d.redirectTo.Redirect? ==> d.redirectTo.path == SignInPath
    ensures d.rendered == Children <==> !isLoading && isAuthenticated
  {
    var redirect := if !isLoading && !isAuthenticated then Redirect(SignInPath) else Stay;
    if isLoading then Decision(redirect, Nothing)
    else if !isAuthenticated then Decision(redirect, Nothing)
    else Decision(redirect, Children)
  }

  /** The guard never both shows its content and redirects, and it is idle
      (neither) exactly while loading. */
  lemma GuardOutcomesExclusive(isLoading: bool, isAuthenticated: bool)
    ensures var d := Guard(isLoading, isAuthenticated);
            !(d.redirectTo.Redirect? && d.rendered == Children)
            && (isLoading <==> d.redirectTo.Stay? && d.rendered == Nothing)
  {
  }
}

=== FILE: auth_service.dfy ===
/** The session service (src/services/authService.ts): one authentication
    record, its mirror in three keys of the persisted key-value store, the
    four transitions `initialize`, `login`, `logout` and `refreshAuthToken`,
    and the listeners that receive a copy of the record after every change.

    Each transition is first stated as a pure step over a `Session` (record
    plus store), with the snapshots it announces; the `AuthService` class
    performs the same transition imperatively, and its methods are proved
    to agree with the steps. Server replies, store failures, `JSON.parse`
    and `JSON.stringify` are inputs. */
module Auth {
  import opened Common
  import opened JsonValue
  import opened ApiClient
  import Config
  import Seqs

  /** The authentication record. `user` is `None` for `null` (and for an
      absent profile field). */
  datatype AuthState = AuthState(
    isAuthenticated: bool,
    user: Option<Json>,
    token: Option<string>,
    refreshToken: Option<string>,
    isLoading: bool)

  /** A user value as the record holds it: JSON `null` and an absent value
      are both `None`. */
  function UserValue(j: Option<Json>): (r: Option<Json>)
    ensures r.None? <==> j.None? || j == Some(JNull)
    ensures r.Some? ==> r == j
  {
    if j == Some(JNull) then None else j
  }

  /** The record with nobody signed in; also the initial record. */
  const SignedOut := AuthState(false, None, None, None, false)

  /** An authenticated record always holds a token. */
  predicate Consistent(s: AuthState) {
    s.isAuthenticated ==> s.token.Some?
  }

  /** The three keys the service keeps in the store. */
  const AuthKeys: set<string> := {Config.AuthTokenKey, Config.RefreshTokenKey, Config.UserDataKey}

  /** `clearStoredData`: the store without the three keys. */
  function ClearKeys(storage: map<string, string>): (r: map<string, string>)
    ensures r.Keys == storage.Keys - AuthKeys
    ensures forall k :: k in r ==> r[k] == storage[k]
  {
    storage - AuthKeys
  }

  /** The record and the store together. */
  datatype Session = Session(state: AuthState, storage: map<string, string>)

  /** A step: the session afterwards, the records announced to listeners
      in order, and the value the operation resolves to. */
  datatype Transition<R> = Transition(session: Session, notified: seq<AuthState>, result: R)

  /** The data of a successful login reply. */
  datatype LoginPayload = LoginPayload(token: string)

  /** The data of a successful refresh reply. */
  datatype TokenPair = TokenPair(token: string, refreshToken: string)

  /** What `login` resolves to. */
  datatype LoginResult = LoginResult(success: bool, error: Option<string>)

  // ---------------------------------------------------------------------
  // initialize

  /** `initialize`: `readFails` says whether reading the store rejected;
      `parse` is `JSON.parse`, `None` where it throws. */
  function InitializeStep(s: Session, readFails: bool, parse: string -> Option<Json>): (t: Transition<bool>)
    ensures |t.notified| == 2 && t.notified[0] == s.state.(isLoading := true) && t.notified[1] == t.session.state
    ensures !t.session.state.isLoading
    ensures t.result ==> t.session.state.isAuthenticated && NonEmpty(t.session.state.token)
    ensures t.result ==> t.session.state.isAuthenticated && t.session.storage == s.storage
                         && t.session.state.token == Lookup(s.storage, Config.AuthTokenKey)
    ensures !t.result ==> t.session.state == s.state.(isLoading := false)
  {
    var loading := s.state.(isLoading := true);
    var idle := s.state.(isLoading := false);
    var token := Lookup(s.storage, Config.AuthTokenKey);
    var userData := Lookup(s.storage, Config.UserDataKey);
    if readFails || !NonEmpty(token) || !NonEmpty(userData) then
      Transition(Session(idle, s.storage), [loading, idle], false)
    else
      match parse(userData.value)
      case Some(user) =>
        var restored := AuthState(true, UserValue(Some(user)), token, Lookup(s.storage, Config.RefreshTokenKey), false);
        Transition(Session(restored, s.storage), [loading, restored], true)
      case None =>
        Transition(Session(idle, ClearKeys(s.storage)), [loading, idle], false)
  }

  /** A stored token with user data that parses restores the session from
      the store, and leaves the store as it was. */
  lemma InitializeRestores(s: Session, parse: string -> Option<Json>)
    requires NonEmpty(Lookup(s.storage, Config.AuthTokenKey)) && NonEmpty(Lookup(s.storage, Config.UserDataKey))
    requires parse(s.storage[Config.UserDataKey]).Some?
    ensures var t := InitializeStep(s, false, parse);
            && t.result
            && t.session.state == AuthState(true, UserValue(parse(s.storage[Config.UserDataKey])), Some(s.storage[Config.AuthTokenKey]),
                                            Lookup(s.storage, Config.RefreshTokenKey), false)
            && t.session.storage == s.storage
  {
  }

  /** User data that does not parse empties the three keys; of the record
      only the loading flag changes; and a second `initialize` then finds
      nothing to restore and changes nothing more. */
  lemma InitializeDropsCorruptData(s: Session, parse: string -> Option<Json>)
    requires NonEmpty(Lookup(s.storage, Config.AuthTokenKey)) && NonEmpty(Lookup(s.storage, Config.UserDataKey))
    requires parse(s.storage[Config.UserDataKey]).None?
    ensures var t := InitializeStep(s, false, parse);
            && !t.result
            && t.session.state == s.state.(isLoading := false)
            && t.session.storage.Keys !! AuthKeys
            && InitializeStep(t.session, false, parse) == Transition(t.session, [s.state.(isLoading := true), t.session.state], false)
  {
    var t := InitializeStep(s, false, parse);
    assert Config.AuthTokenKey !in t.session.storage;
  }

  /** Without a token or without user data (or when the store cannot be
      read) nothing is restored: the store is untouched and only the
      loading flag changes. */
  lemma InitializeWithoutSession(s: Session, readFails: bool, parse: string -> Option<Json>)
    requires readFails || !NonEmpty(Lookup(s.storage, Config.AuthTokenKey)) || !NonEmpty(Lookup(s.storage, Config.UserDataKey))
    ensures InitializeStep(s, readFails, parse) == Transition(Session(s.state.(isLoading := false), s.storage),
                                                             [s.state.(isLoading := true), s.state.(isLoading := false)], false)
  {
  }

  // ---------------------------------------------------------------------
  // login

  /** `login`: `reply` is the normalised login reply; `tokenWrite` and
      `userWrite` say whether storing the token or the user data rejected
      (and with what); `profile` is the profile reply; `serialize` is
      `JSON.stringify` of the profile's `user` field. */
  function LoginStep(s: Session, reply: ApiResponse<LoginPayload>, tokenWrite: Option<Thrown>,
                     profile: ApiResponse<Json>, userWrite: Option<Thrown>,
                     serialize: Option<Json> -> string): (t: Transition<LoginResult>)
    ensures |t.notified| == 2 && t.notified[0] == s.state.(isLoading := true) && t.notified[1] == t.session.state
    ensures t.result.success <==> reply.success && reply.data.Some? && tokenWrite.None?
    ensures t.result.success ==> t.result.error.None? && t.session.state.isAuthenticated
                                 && t.session.state.token == Some(reply.data.value.token)
                                 && Config.AuthTokenKey in t.session.storage
                                 && t.session.storage[Config.AuthTokenKey] == reply.data.value.token
    ensures !t.result.success ==> t.result.error.Some? && t.session == Session(s.state.(isLoading := false), s.storage)
  {
    var loading := s.state.(isLoading := true);
    var idle := s.state.(isLoading := false);
    if !(reply.success && reply.data.Some?) then
      Transition(Session(idle, s.storage), [loading, idle],
                 LoginResult(false, Some(OrElse(reply.error, "Login failed - invalid response structure"))))
    else if tokenWrite.Some? then
      Transition(Session(idle, s.storage), [loading, idle],
                 LoginResult(false, Some(MessageOr(tokenWrite.value, "Login failed"))))
    else
      var token := reply.data.value.token;
      var withToken := s.storage[Config.AuthTokenKey := token];
      var user := Field(GetUserProfile(profile), "user");
      if userWrite.Some? then
        var signedIn := AuthState(true, None, Some(token), None, false);
        Transition(Session(signedIn, withToken), [loading, signedIn], LoginResult(true, None))
      else
        var signedIn := AuthState(true, UserValue(user), Some(token), None, false);
        Transition(Session(signedIn, withToken[Config.UserDataKey := serialize(user)]), [loading, signedIn], LoginResult(true, None))
  }

  /** A login whose reply carries a token succeeds (unless storing the token
      rejects): the token is stored even when storing the profile fails, the
      record is authenticated without refresh token and not loading, and
      the user is the profile's, or `null` when storing it failed. */
  lemma LoginSucceeds(s: Session, token: string, tokenMessage: Option<Json>, profile: ApiResponse<Json>,
                      userWrite: Option<Thrown>, serialize: Option<Json> -> string)
    ensures var t := LoginStep(s, ApiResponse(true, Some(LoginPayload(token)), tokenMessage, None), None, profile, userWrite, serialize);
            && t.result == LoginResult(true, None)
            && t.session.storage[Config.AuthTokenKey] == token
            && t.session.state.isAuthenticated && t.session.state.token == Some(token)
            && t.session.state.refreshToken.None? && !t.session.state.isLoading
            && (userWrite.Some? ==> t.session.state.user.None? && t.session.storage == s.storage[Config.AuthTokenKey := token])
            && (userWrite.None? ==>
                  t.session.state.user == UserValue(Field(GetUserProfile(profile), "user"))
                  && t.session.storage[Config.UserDataKey] == serialize(Field(GetUserProfile(profile), "user")))
  {
  }

  /** A failed login changes nothing but the loading flag, which ends
      cleared, and reports the reply's error, the fixed text, or the message
      of the rejected store write. */
  lemma LoginFailsCleanly(s: Session, reply: ApiResponse<LoginPayload>, tokenWrite: Option<Thrown>,
                          profile: ApiResponse<Json>, userWrite: Option<Thrown>, serialize: Option<Json> -> string)
    requires !(reply.success && reply.data.Some?) || tokenWrite.Some?
    ensures var t := LoginStep(s, reply, tokenWrite, profile, userWrite, serialize);
            && !t.result.success
            && t.session == Session(s.state.(isLoading := false), s.storage)
            && t.result.error == Some(if !(reply.success && reply.data.Some?)
                                      then OrElse(reply.error, "Login failed - invalid response structure")
                                      else MessageOr(tokenWrite.value, "Login failed"))
  {
  }

  /** A login reply that was not JSON reports the client's non-JSON text. */
  lemma LoginAgainstNonJsonServer(s: Session, status: nat, contentType: Option<string>, body: Body,
                                  profile: ApiResponse<Json>, userWrite: Option<Thrown>, serialize: Option<Json> -> string)
    requires !IsJsonContentType(contentType)
    ensures var r := MakeRequest(Responded(status, contentType, body));
            var t := LoginStep(s, ApiResponse(false, None, None, r.error), None, profile, userWrite, serialize);
            t.result == LoginResult(false, Some(NonJsonError(status)))
  {
    NonJsonResponseFails(status, contentType, body);
  }

  // ---------------------------------------------------------------------
  // logout and refreshAuthToken

  /** `logout`: whatever the server answers (the client call cannot
      reject), the store loses the three keys and the record is signed out. */
  function LogoutStep(s: Session): (t: Transition<()>)
    ensures !t.session.state.isAuthenticated && t.session.state.user.None?
    ensures t.session.state.token.None? && t.session.state.refreshToken.None? && !t.session.state.isLoading
    ensures t.session.storage.Keys == s.storage.Keys - AuthKeys
    ensures forall k :: k in t.session.storage ==> t.session.storage[k] == s.storage[k]
    ensures t.notified == [t.session.state]
  {
    Transition(Session(SignedOut, ClearKeys(s.storage)), [SignedOut], ())
  }

  /** `refreshAuthToken`: `server` is the reply the refresh request would
      get, sent only when a refresh token is stored; `tokenWrite` says
      whether storing the new pair rejected. */
  function RefreshStep(s: Session, server: ApiResponse<TokenPair>, tokenWrite: Option<Thrown>): (t: Transition<bool>)
    ensures t.notified == [t.session.state]
    ensures t.result ==> NonEmpty(Lookup(s.storage, Config.RefreshTokenKey)) && tokenWrite.None?
    ensures t.result ==> t.session.state.isAuthenticated == s.state.isAuthenticated && t.session.state.user == s.state.user
                         && t.session.state.token.Some? && t.session.state.refreshToken.Some?
                         && Config.AuthTokenKey in t.session.storage && Config.RefreshTokenKey in t.session.storage
                         && t.session.storage[Config.AuthTokenKey] == t.session.state.token.value
                         && t.session.storage[Config.RefreshTokenKey] == t.session.state.refreshToken.value
    ensures !t.result ==> t.session.state == SignedOut && t.session.storage.Keys !! AuthKeys
  {
    var reply := RefreshToken(Read(Lookup(s.storage, Config.RefreshTokenKey)), server);
    if reply.success && reply.data.Some? && tokenWrite.None? then
      var pair := reply.data.value;
      var refreshed := s.state.(token := Some(pair.token), refreshToken := Some(pair.refreshToken));
      var storage := s.storage[Config.AuthTokenKey := pair.token][Config.RefreshTokenKey := pair.refreshToken];
      Transition(Session(refreshed, storage), [refreshed], true)
    else
      var out := LogoutStep(s);
      Transition(out.session, out.notified, false)
  }

  /** `login` does not test the token a successful reply carries: an empty
      one is stored and adopted, and the record is authenticated with it.
      Only `initialize` insists on a non-empty token. */
  lemma EmptyTokenSignsIn(s: Session, profile: ApiResponse<Json>, userWrite: Option<Thrown>,
                          serialize: Option<Json> -> string)
    ensures var t := LoginStep(s, ApiResponse(true, Some(LoginPayload("")), None, None), None, profile, userWrite, serialize);
            && t.result.success
            && t.session.state.isAuthenticated && t.session.state.token == Some("")
            && t.session.storage[Config.AuthTokenKey] == ""
  {
  }

  /** Nor does `refreshAuthToken`: an empty token in a successful refresh
      reply replaces the one an authenticated record held. */
  lemma EmptyTokenRefreshes(s: Session, refreshToken: string)
    requires s.state.isAuthenticated && NonEmpty(Lookup(s.storage, Config.RefreshTokenKey))
    ensures var t := RefreshStep(s, ApiResponse(true, Some(TokenPair("", refreshToken)), None, None), None);
            t.result && t.session.state.isAuthenticated && t.session.state.token == Some("")
  {
  }

  /** A refresh with a stored refresh token and a successful reply stores
      and adopts the new pair and changes nothing else. */
  lemma RefreshAdoptsNewPair(s: Session, pair: TokenPair, message: Option<Json>)
    requires NonEmpty(Lookup(s.storage, Config.RefreshTokenKey))
    ensures var t := RefreshStep(s, ApiResponse(true, Some(pair), message, None), None);
            && t.result
            && t.session.state == s.state.(token := Some(pair.token), refreshToken := Some(pair.refreshToken))
            && t.session.storage == s.storage[Config.AuthTokenKey := pair.token][Config.RefreshTokenKey := pair.refreshToken]
  {
  }

  /** Every failed refresh, including one without a stored refresh token,
      is a logout. */
  lemma RefreshFailureLogsOut(s: Session, server: ApiResponse<TokenPair>, tokenWrite: Option<Thrown>)
    requires !NonEmpty(Lookup(s.storage, Config.RefreshTokenKey)) || !(server.success && server.data.Some?) || tokenWrite.Some?
    ensures var t := RefreshStep(s, server, tokenWrite);
            !t.result && t.session == LogoutStep(s).session && t.notified == LogoutStep(s).notified
  {
  }

  /** After a login and a logout the store holds none of the three keys and
      the record is the signed-out one, whatever the login did. */
  lemma LoginThenLogoutPurges(s: Session, reply: ApiResponse<LoginPayload>, tokenWrite: Option<Thrown>,
                              profile: ApiResponse<Json>, userWrite: Option<Thrown>, serialize: Option<Json> -> string)
    ensures var t := LogoutStep(LoginStep(s, reply, tokenWrite, profile, userWrite, serialize).session);
            t.session.state == SignedOut && t.session.storage.Keys !! AuthKeys
  {
  }

  /** Every step keeps an authenticated record holding a token, and so does
      every record it announces. */
  lemma StepsKeepConsistent(s: Session, readFails: bool, parse: string -> Option<Json>,
                            reply: ApiResponse<LoginPayload>, tokenWrite: Option<Thrown>, profile: ApiResponse<Json>,
                            userWrite: Option<Thrown>, serialize: Option<Json> -> string, server: ApiResponse<TokenPair>)
    requires Consistent(s.state)
    ensures var t := InitializeStep(s, readFails, parse);
            Consistent(t.session.state) && forall a <- t.notified :: Consistent(a)
    ensures var t := LoginStep(s, reply, tokenWrite, profile, userWrite, serialize);
            Consistent(t.session.state) && forall a <- t.notified :: Consistent(a)
    ensures var t := RefreshStep(s, server, tokenWrite);
            Consistent(t.session.state) && forall a <- t.notified :: Consistent(a)
    ensures Consistent(LogoutStep(s).session.state)
  {
    InitializeKeepsConsistent(s, readFails, parse);
    LoginKeepsConsistent(s, reply, tokenWrite, profile, userWrite, serialize);
    RefreshKeepsConsistent(s, server, tokenWrite);
  }

  /** The `initialize` part of `StepsKeepConsistent`. */
  lemma InitializeKeepsConsistent(s: Session, readFails: bool, parse: string -> Option<Json>)
    requires Consistent(s.state)
    ensures var t := InitializeStep(s, readFails, parse);
            Consistent(t.session.state) && forall a <- t.notified :: Consistent(a)
  {
  }

  /** The `login` part of `StepsKeepConsistent`. */
  lemma LoginKeepsConsistent(s: Session, reply: ApiResponse<LoginPayload>, tokenWrite: Option<Thrown>,
                             profile: ApiResponse<Json>, userWrite: Option<Thrown>, serialize: Option<Json> -> string)
    requires Consistent(s.state)
    ensures var t := LoginStep(s, reply, tokenWrite, profile, userWrite, serialize);
            Consistent(t.session.state) && forall a <- t.notified :: Consistent(a)
  {
  }

  /** The `refreshAuthToken` part of `StepsKeepConsistent`. */
  lemma RefreshKeepsConsistent(s: Session, server: ApiResponse<TokenPair>, tokenWrite: Option<Thrown>)
    requires Consistent(s.state)
    ensures var t := RefreshStep(s, server, tokenWrite);
            Consistent(t.session.state) && forall a <- t.notified :: Consistent(a)
  {
  }

  // ---------------------------------------------------------------------
  // Listeners

  /** A listener, identified by `id`. Whether it throws does not matter:
      `notifyListeners` catches the error of each call and goes on. */
  datatype Listener = Listener(id: nat)

  /** One call of a listener with a copy of the record. */
  datatype Delivery = Delivery(listener: Listener, snapshot: AuthState)

  /** `notifyListeners` with record `a`: every listener, in order, receives
      `a`; the per-call catch means a throwing listener does not stop the
      ones after it. */
  function Fanout(ls: seq<Listener>, a: AuthState): (r: seq<Delivery>)
    ensures |r| == |ls|
    ensures forall i :: 0 <= i < |ls| ==> r[i] == Delivery(ls[i], a)
  {
    seq(|ls|, i requires 0 <= i < |ls| => Delivery(ls[i], a))
  }

  /** The deliveries of several announcements, one after the other. */
  function FanoutAll(ls: seq<Listener>, snapshots: seq<AuthState>): (r: seq<Delivery>)
    ensures |r| == |ls| * |snapshots|
  {
    if snapshots == [] then [] else Fanout(ls, snapshots[0]) + FanoutAll(ls, snapshots[1..])
  }

  /** The position of the first occurrence of `l`, if any (`indexOf`). */
  function IndexOf(ls: seq<Listener>, l: Listener): (r: Option<nat>)
    ensures r.Some? <==> l in ls
    ensures r.Some? ==> r.value < |ls| && ls[r.value] == l && l !in ls[..r.value]
  {
    if ls == [] then None
    else if ls[0] == l then Some(0)
    else match IndexOf(ls[1..], l)
      case None => None
      case Some(i) =>
        assert ls[1..][..i] == ls[1..i + 1];
        assert ls[..i + 1] == [ls[0]] + ls[1..i + 1];
        Some(i + 1)
  }

  /** The unsubscribe function: removes the first occurrence of `l`, and
      nothing when `l` is not subscribed. */
  function Unsubscribed(ls: seq<Listener>, l: Listener): seq<Listener> {
    match IndexOf(ls, l)
    case None => ls
    case Some(i) => ls[..i] + ls[i + 1..]
  }

  /** Unsubscribing removes exactly one occurrence of the listener when it is
      subscribed and nothing otherwise, and keeps the others in order. */
  lemma UnsubscribeRemovesOne(ls: seq<Listener>, l: Listener)
    ensures multiset(Unsubscribed(ls, l)) == multiset(ls) - multiset{l}
    ensures l !in ls ==> Unsubscribed(ls, l) == ls
    ensures l in ls ==> |Unsubscribed(ls, l)| == |ls| - 1
    ensures Seqs.SubsequenceOf(Unsubscribed(ls, l), ls)
  {
    UnsubscribedMultiset(ls, l);
    match IndexOf(ls, l)
    case None =>
      Seqs.SubsequenceOfSelf(ls);
    case Some(i) =>
      Seqs.RemoveAtIsSubsequence(ls, i);
  }

  /** Removing the first occurrence takes one `l` out of the multiset. */
  lemma UnsubscribedMultiset(ls: seq<Listener>, l: Listener)
    ensures multiset(Unsubscribed(ls, l)) == multiset(ls) - multiset{l}
  {
    match IndexOf(ls, l)
    case None =>
    case Some(i) =>
      assert ls == ls[..i] + [l] + ls[i + 1..];
      calc {
        multiset(ls);
        multiset(ls[..i]) + multiset{l} + multiset(ls[i + 1..]);
      }
  }

  /** Subscribing a listener and then calling its unsubscribe function
      restores the list, when the listener was not subscribed before. */
  lemma {:induction false} SubscribeThenUnsubscribe(ls: seq<Listener>, l: Listener)
    requires l !in ls
    ensures Unsubscribed(ls + [l], l) == ls
  {
    var i := IndexOf(ls + [l], l);
    assert (ls + [l])[|ls|] == l;
    assert i.Some?;
    assert i.value == |ls|;
    assert (ls + [l])[..|ls|] == ls;
  }

  /** The service. The record's five fields are fields of the class; the
      store is a map over keys; `delivered` logs every listener call. */
  class AuthService {
    var isAuthenticated: bool
    var user: Option<Json>
    var token: Option<string>
    var refreshToken: Option<string>
    var isLoading: bool
    var storage: map<string, string>
    var listeners: seq<Listener>
    var delivered: seq<Delivery>

    function State(): AuthState
      reads this
    {
      AuthState(isAuthenticated, user, token, refreshToken, isLoading)
    }

    function Current(): Session
      reads this
    {
      Session(State(), storage)
    }

    predicate Valid()
      reads this
    {
      Consistent(State())
    }

    /** A fresh service over a store with contents `persisted`. */
    constructor(persisted: map<string, string>)
      ensures State() == SignedOut && storage == persisted && listeners == [] && delivered == []
      ensures Valid()
    {
      isAuthenticated := false;
      user := None;
      token := None;
      refreshToken := None;
      isLoading := false;
      storage := persisted;
      listeners := [];
      delivered := [];
    }

    /** `getAuthState`: a copy of the record. */
    method GetAuthState() returns (a: AuthState)
      ensures a == State()
    {
      a := AuthState(isAuthenticated, user, token, refreshToken, isLoading);
    }

    /** `subscribe`: appends `l`. */
    method Subscribe(l: Listener)
      modifies this`listeners
      ensures listeners == old(listeners) + [l]
    {
      listeners := listeners + [l];
    }

    /** The function `subscribe` returns, called. */
    method Unsubscribe(l: Listener)
      modifies this`listeners
      ensures listeners == Unsubscribed(old(listeners), l)
    {
      var index := IndexOf(listeners, l);
      if index.Some? {
        listeners := listeners[..index.value] + listeners[index.value + 1..];
      }
    }

    /** `notifyListeners`: hands each listener, in order, a copy of the
        record; one that throws is skipped over. */
    method NotifyListeners()
      modifies this`delivered
      ensures delivered == old(delivered) + Fanout(listeners, State())
    {
      var i := 0;
      while i < |listeners|
        invariant 0 <= i <= |listeners|
        invariant delivered == old(delivered) + Fanout(listeners[..i], State())
      {
        assert listeners[..i + 1] == listeners[..i] + [listeners[i]];
        delivered := delivered + [Delivery(listeners[i], State())];
        i := i + 1;
      }
      assert listeners[..i] == listeners;
    }

    /** `setLoading` */
    method SetLoading(b: bool)
      modifies this`isLoading, this`delivered
      ensures State() == old(State()).(isLoading := b)
      ensures delivered == old(delivered) + Fanout(listeners, State())
    {
      isLoading := b;
      NotifyListeners();
    }

    /** `clearStoredData` */
    method ClearStoredData()
      modifies this`storage
      ensures storage == ClearKeys(old(storage))
    {
      storage := storage - {Config.AuthTokenKey, Config.RefreshTokenKey, Config.UserDataKey};
    }

    method Initialize(readFails: bool, parse: string -> Option<Json>) returns (restored: bool)
      requires Valid()
      modifies this`isAuthenticated, this`user, this`token, this`refreshToken, this`isLoading, this`storage, this`delivered
      ensures var t := InitializeStep(old(Current()), readFails, parse);
              Current() == t.session && restored == t.result
              && delivered == old(delivered) + FanoutAll(listeners, t.notified)
      ensures Valid()
    {
      ghost var before := delivered;
      SetLoading(true);
      ghost var first := delivered;
      var storedToken := Lookup(storage, Config.AuthTokenKey);
      var storedRefresh := Lookup(storage, Config.RefreshTokenKey);
      var userData := Lookup(storage, Config.UserDataKey);
      if !readFails && NonEmpty(storedToken) && NonEmpty(userData) {
        var parsed := parse(userData.value);
        if parsed.Some? {
          isAuthenticated, user, token, refreshToken, isLoading := true, UserValue(parsed), storedToken, storedRefresh, false;
          NotifyListeners();
          AnnouncedTwice(listeners, old(State()).(isLoading := true), State(), before, first, delivered);
          return true;
        }
        ClearStoredData();
      }
      isLoading := false;
      NotifyListeners();
      AnnouncedTwice(listeners, old(State()).(isLoading := true), State(), before, first, delivered);
      restored := false;
    }

    method Login(reply: ApiResponse<LoginPayload>, tokenWrite: Option<Thrown>, profile: ApiResponse<Json>,
                 userWrite: Option<Thrown>, serialize: Option<Json> -> string) returns (result: LoginResult)
      requires Valid()
      modifies this`isAuthenticated, this`user, this`token, this`refreshToken, this`isLoading, this`storage, this`delivered
      ensures var t := LoginStep(old(Current()), reply, tokenWrite, profile, userWrite, serialize);
              Current() == t.session && result == t.result
              && delivered == old(delivered) + FanoutAll(listeners, t.notified)
      ensures Valid()
    {
      ghost var before := delivered;
      SetLoading(true);
      ghost var first := delivered;
      if !(reply.success && reply.data.Some?) {
        SetLoading(false);
        AnnouncedTwice(listeners, old(State()).(isLoading := true), State(), before, first, delivered);
        return LoginResult(false, Some(OrElse(reply.error, "Login failed - invalid response structure")));
      }
      if tokenWrite.Some? {
        SetLoading(false);
        AnnouncedTwice(listeners, old(State()).(isLoading := true), State(), before, first, delivered);
        return LoginResult(false, Some(MessageOr(tokenWrite.value, "Login failed")));
      }
      var newToken := reply.data.value.token;
      storage := storage[Config.AuthTokenKey := newToken];
      var profileUser := Field(GetUserProfile(profile), "user");
      if userWrite.Some? {
        isAuthenticated, user, token, refreshToken, isLoading := true, None, Some(newToken), None, false;
      } else {
        storage := storage[Config.UserDataKey := serialize(profileUser)];
        isAuthenticated, user, token, refreshToken, isLoading := true, UserValue(profileUser), Some(newToken), None, false;
      }
      NotifyListeners();
      AnnouncedTwice(listeners, old(State()).(isLoading := true), State(), before, first, delivered);
      result := LoginResult(true, None);
    }

    method Logout()
      modifies this`isAuthenticated, this`user, this`token, this`refreshToken, this`isLoading, this`storage, this`delivered
      ensures var t := LogoutStep(old(Current()));
              Current() == t.session && delivered == old(delivered) + FanoutAll(listeners, t.notified)
      ensures Valid()
    {
      ClearStoredData();
      isAuthenticated, user, token, refreshToken, isLoading := false, None, None, None, false;
      NotifyListeners();
      AnnouncedOnce(listeners, State());
    }

    method RefreshAuthToken(server: ApiResponse<TokenPair>, tokenWrite: Option<Thrown>) returns (refreshed: bool)
      requires Valid()
      modifies this`isAuthenticated, this`user, this`token, this`refreshToken, this`isLoading, this`storage, this`delivered
      ensures var t := RefreshStep(old(Current()), server, tokenWrite);
              Current() == t.session && refreshed == t.result
              && delivered == old(delivered) + FanoutAll(listeners, t.notified)
      ensures Valid()
    {
      var reply := RefreshToken(Read(Lookup(storage, Config.RefreshTokenKey)), server);
      if reply.success && reply.data.Some? && tokenWrite.None? {
        var pair := reply.data.value;
        storage := storage[Config.AuthTokenKey := pair.token][Config.RefreshTokenKey := pair.refreshToken];
        token, refreshToken := Some(pair.token), Some(pair.refreshToken);
        NotifyListeners();
        AnnouncedOnce(listeners, State());
        return true;
      }
      Logout();
      refreshed := false;
    }
  }

  /** One announcement delivers exactly one round of the listeners (a step
      of the proofs of `SetLoading` and `Logout`). */
  lemma AnnouncedOnce(ls: seq<Listener>, a: AuthState)
    ensures FanoutAll(ls, [a]) == Fanout(ls, a)
  {
    assert [a][1..] == [];
  }

  /** Two announcements in a row deliver two rounds, the first record first
      (a step of the proofs of `Initialize` and `Login`). */
  lemma AnnouncedTwice(ls: seq<Listener>, a: AuthState, b: AuthState,
                       before: seq<Delivery>, middle: seq<Delivery>, after: seq<Delivery>)
    requires middle == before + Fanout(ls, a) && after == middle + Fanout(ls, b)
    ensures after == before + FanoutAll(ls, [a, b])
  {
    assert [a, b][1..] == [b];
    AnnouncedOnce(ls, b);
  }
}

=== FILE: common.dfy ===
/** JavaScript values the rest of the model shares: optional values, thrown
    values, `String.prototype.includes`, ASCII lower-casing and the decimal
    text of numbers. */
module Common {

  datatype Option<T> = None | Some(value: T)

  /** An `Error` object as the code reads it: its `message` and, for errors
      raised by an HTTP client, `error.response?.status`. */
  datatype JsError = JsError(message: string, status: Option<nat>)

  /** A value delivered by a JavaScript `throw`: an `Error`, or anything else. */
  datatype Thrown = ThrownError(error: JsError) | ThrownOther

  /** `err instanceof Error ? err.message : fallback` */
  function MessageOr(t: Thrown, fallback: string): (r: string)
    ensures t.ThrownError? ==> r == t.error.message
    ensures t.ThrownOther? ==> r == fallback
  {
    match t
    case ThrownError(e) => e.message
    case ThrownOther => fallback
  }

  /** JavaScript truthiness of a string that may be `null`/`undefined`. */
  predicate NonEmpty(s: Option<string>) {
    s.Some? && s.value != ""
  }

  /** `s || fallback` for a string that may be `null`/`undefined`. */
  function OrElse(s: Option<string>, fallback: string): (r: string)
    ensures NonEmpty(s) ==> r == s.value
    ensures !NonEmpty(s) ==> r == fallback
  {
    if NonEmpty(s) then s.value else fallback
  }

  /** Value stored under `key`, if any. */
  function Lookup<K, V>(m: map<K, V>, key: K): (r: Option<V>)
    ensures r.Some? <==> key in m
    ensures r.Some? ==> r.value == m[key]
  {
    if key in m then Some(m[key]) else None
  }

  // ---------------------------------------------------------------------
  // String.prototype.includes

  /** `sub` starts at offset `i` of `s`. */
  predicate OccursAt(s: string, sub: string, i: nat) {
    i + |sub| <= |s| && s[i..i + |sub|] == sub
  }

  /** `s.includes(sub)`: `sub` occurs in `s` at some offset. */
  predicate Contains(s: string, sub: string) {
    exists i: nat :: i <= |s| && OccursAt(s, sub, i)
  }

  /** Every text contains itself, and the empty text. */
  lemma ContainsTrivially(s: string)
    ensures Contains(s, s) && Contains(s, "")
  {
    assert OccursAt(s, s, 0);
    assert OccursAt(s, "", 0);
  }

  /** A text that lacks one of the characters of `sub` does not contain `sub`. */
  lemma MissingCharExcludes(s: string, sub: string, c: char)
    requires c in sub && c !in s
    ensures !Contains(s, sub)
  {
    forall i: nat | i <= |s| && i + |sub| <= |s|
      ensures !OccursAt(s, sub, i)
    {
      var k :| 0 <= k < |sub| && sub[k] == c;
      assert s[i..i + |sub|][k] == s[i + k];
      assert s[i + k] in s;
    }
  }

  /** An occurrence survives text added on either side. */
  lemma {:induction false} ContainsExtend(a: string, b: string, sub: string)
    requires Contains(b, sub)
    ensures Contains(a + b, sub) && Contains(b + a, sub)
  {
    var i: nat :| i <= |b| && OccursAt(b, sub, i);
    assert (a + b)[|a| + i..|a| + i + |sub|] == b[i..i + |sub|];
    assert (b + a)[i..i + |sub|] == b[i..i + |sub|];
    assert OccursAt(a + b, sub, |a| + i);
    assert OccursAt(b + a, sub, i);
  }

  /** Behind a prefix that does not contain `sub` and whose last character is
      not a character of `sub`, `sub` occurs in `p + s` exactly when it occurs
      in `s`: no occurrence can start inside the prefix. */
  lemma {:induction false} ContainsBehindPrefix(p: string, s: string, sub: string)
    requires p != [] && p[|p| - 1] !in sub && !Contains(p, sub)
    ensures Contains(p + s, sub) <==> Contains(s, sub)
  {
    forall i: nat | i < |p| ensures !OccursAt(p + s, sub, i) {
      if i + |sub| <= |p| {
        assert (p + s)[i..i + |sub|] == p[i..i + |sub|];
        assert !OccursAt(p, sub, i);
      } else if i + |sub| <= |p + s| {
        assert (p + s)[i..i + |sub|][|p| - 1 - i] == p[|p| - 1];
      }
    }
    forall i: nat | |p| <= i && OccursAt(p + s, sub, i) ensures OccursAt(s, sub, i - |p|) {
      assert s[i - |p|..i - |p| + |sub|] == (p + s)[i..i + |sub|];
    }
    if Contains(s, sub) {
      ContainsExtend(p, s, sub);
    }
  }

  // ---------------------------------------------------------------------
  // String.prototype.toLowerCase, restricted to ASCII letters

  function LowerChar(c: char): char {
    if 'A' <= c <= 'Z' then (c as int + 32) as char else c
  }

  function ToLower(s: string): (r: string)
    ensures |r| == |s|
    ensures forall i :: 0 <= i < |s| ==> r[i] == LowerChar(s[i])
  {
    if s == [] then [] else [LowerChar(s[0])] + ToLower(s[1..])
  }

  /** Lower-casing twice changes nothing more. */
  lemma ToLowerIdempotent(s: string)
    ensures ToLower(ToLower(s)) == ToLower(s)
  {
    assert forall i :: 0 <= i < |s| ==> LowerChar(LowerChar(s[i])) == LowerChar(s[i]);
  }

  // ---------------------------------------------------------------------
  // Decimal text of numbers (template literals and `toString()`)

  function DigitChar(d: nat): (c: char)
    requires d < 10
    ensures '0' <= c <= '9'
  {
    ('0' as int + d) as char
  }

  /** Decimal text of a natural number, without leading zeros. */
  function NatToString(n: nat): (r: string)
    ensures r != []
    ensures forall i :: 0 <= i < |r| ==> '0' <= r[i] <= '9'
    ensures r[0] == '0' ==> n == 0
    decreases n
  {
    if n < 10 then [DigitChar(n)] else NatToString(n / 10) + [DigitChar(n % 10)]
  }

  /** Value of a string of decimal digits. */
  function DigitsValue(s: string): nat
    requires forall i :: 0 <= i < |s| ==> '0' <= s[i] <= '9'
  {
    if s == [] then 0 else 10 * DigitsValue(s[..|s| - 1]) + (s[|s| - 1] as int - '0' as int)
  }

  /** Reading the text back gives the number: the rendering loses nothing. */
  lemma {:induction false} NatToStringRoundTrip(n: nat)
    ensures DigitsValue(NatToString(n)) == n
    decreases n
  {
    if n >= 10 {
      NatToStringRoundTrip(n / 10);
      var r := NatToString(n);
      assert r[..|r| - 1] == NatToString(n / 10);
    }
  }

  /** `n.toString()` for an integer. */
  function IntToString(n: int): (r: string)
    ensures r != []
    ensures r[0] == '-' <==> n < 0
  {
    if n < 0 then "-" + NatToString(-n) else NatToString(n)
  }
}

=== FILE: config.dfy ===
/** The storage keys and endpoint paths the modelled code uses
    (src/config/constants.ts). */
module Config {

  // Persisted key-value store keys
  const AuthTokenKey := "auth_token"
  const RefreshTokenKey := "refresh_token"
  const UserDataKey := "user_data"

  // Shift endpoints
  const ShiftsEndpoint := "/api/turnos"
  const ShiftsByEstablishmentEndpoint := "/api/turnos/establecimiento"
  const EndShiftEndpoint := "/api/turnos/finalizar"
}

=== FILE: json_value.dfy ===
/** JSON values as the client receives them from the server, with the two
    JavaScript readings the code applies to them: truthiness (`if (x)`,
    `x || y`) and optional field access (`x?.key`). */
module JsonValue {
  import opened Common

  /** A parsed JSON document. Numbers are integers in this model. */
  datatype Json =
    | JNull
    | JBool(b: bool)
    | JNum(n: int)
    | JStr(s: string)
    | JArr(items: seq<Json>)
    | JObj(fields: map<string, Json>)

  /** JavaScript truthiness: `null`, `false`, `0` and `""` are falsy;
      every array and object is truthy. */
  predicate Truthy(j: Json) {
    match j
    case JNull => false
    case JBool(b) => b
    case JNum(n) => n != 0
    case JStr(s) => s != ""
    case JArr(_) => true
    case JObj(_) => true
  }

  /** `j?.key`: the field of an object, `undefined` (None) for a missing
      field or a value that is not an object. */
  function Field(j: Json, key: string): (r: Option<Json>)
    ensures r.Some? <==> j.JObj? && key in j.fields
    ensures r.Some? ==> r.value == j.fields[key]
  {
    if j.JObj? && key in j.fields then Some(j.fields[key]) else None
  }

  /** Truthiness of a value that may be `undefined`. */
  predicate TruthyField(j: Option<Json>) {
    j.Some? && Truthy(j.value)
  }

  /** `String(j)`: the text `new Error(j)` gives a value that is not a string.
      Arrays join their elements with ","; `null` elements become "". */
  function Text(j: Json): string {
    match j
    case JNull => "null"
    case JBool(b) => if b then "true" else "false"
    case JNum(n) => IntToString(n)
    case JStr(s) => s
    case JArr(items) => Join(items)
    case JObj(_) => "[object Object]"
  }

  function Join(items: seq<Json>): string
    decreases items
  {
    if items == [] then ""
    else
      var head := if items[0] == JNull then "" else Text(items[0]);
      if |items| == 1 then head else head + "," + Join(items[1..])
  }
}

=== FILE: seqs.dfy ===
/** Sequence operations the list components are built from: JavaScript's
    `Array.prototype.filter`, and `Array.prototype.sort` with a numeric
    comparator, which ECMAScript 2019 and later require to be stable. */
module Seqs {

  // ---------------------------------------------------------------------
  // filter

  /** `s.filter(p)` */
  function Filter<T>(s: seq<T>, p: T -> bool): (r: seq<T>)
    ensures |r| <= |s|
    ensures forall i :: 0 <= i < |r| ==> p(r[i]) && r[i] in s
    ensures forall i :: 0 <= i < |s| && p(s[i]) ==> s[i] in r
  {
    if s == [] then []
    else if p(s[0]) then [s[0]] + Filter(s[1..], p)
    else Filter(s[1..], p)
  }

  /** `a` is `b` with some elements left out, the others in their order. */
  predicate SubsequenceOf<T(==)>(a: seq<T>, b: seq<T>)
    decreases |b|
  {
    if a == [] then true
    else if b == [] then false
    else if a[0] == b[0] then SubsequenceOf(a[1..], b[1..])
    else SubsequenceOf(a, b[1..])
  }

  /** Every sequence is a subsequence of itself. */
  lemma {:induction false} SubsequenceOfSelf<T>(s: seq<T>)
    ensures SubsequenceOf(s, s)
  {
    if s != [] {
      SubsequenceOfSelf(s[1..]);
    }
  }

  /** An element in front of `b` can be skipped. */
  lemma {:induction false} SubsequenceSkip<T>(a: seq<T>, b: seq<T>, x: T)
    requires SubsequenceOf(a, b)
    ensures SubsequenceOf(a, [x] + b)
    decreases |b|, 1
  {
    if a != [] {
      assert ([x] + b)[1..] == b;
      if a[0] == x {
        SubsequenceDropFirst(a, b);
      }
    }
  }

  /** Dropping the first element of a subsequence leaves a subsequence. */
  lemma {:induction false} SubsequenceDropFirst<T>(a: seq<T>, b: seq<T>)
    requires a != [] && SubsequenceOf(a, b)
    ensures SubsequenceOf(a[1..], b)
    decreases |b|, 0
  {
    assert b != [];
    if a[0] == b[0] {
      SubsequenceSkip(a[1..], b[1..], b[0]);
      assert [b[0]] + b[1..] == b;
    } else {
      SubsequenceDropFirst(a, b[1..]);
      SubsequenceSkip(a[1..], b[1..], b[0]);
      assert [b[0]] + b[1..] == b;
    }
  }

  /** Removing the element at `i` keeps the others in order. */
  lemma {:induction false} RemoveAtIsSubsequence<T>(s: seq<T>, i: nat)
    requires i < |s|
    ensures SubsequenceOf(s[..i] + s[i + 1..], s)
  {
    if i == 0 {
      assert s[..0] + s[1..] == s[1..];
      SubsequenceOfSelf(s[1..]);
      SubsequenceSkip(s[1..], s[1..], s[0]);
      assert [s[0]] + s[1..] == s;
    } else {
      var r := s[..i] + s[i + 1..];
      RemoveAtIsSubsequence(s[1..], i - 1);
      assert r[0] == s[0];
      assert r[1..] == s[1..][..i - 1] + s[1..][i..];
    }
  }

  /** A filter keeps the order of what it keeps. */
  lemma {:induction false} FilterIsSubsequence<T>(s: seq<T>, p: T -> bool)
    ensures SubsequenceOf(Filter(s, p), s)
  {
    if s != [] {
      FilterIsSubsequence(s[1..], p);
      var r := Filter(s, p);
      if p(s[0]) {
        assert r[0] == s[0] && r[1..] == Filter(s[1..], p);
      } else {
        assert r == [] || (p(r[0]) && r[0] != s[0]);
      }
    }
  }

  /** Both tests at once. */
  function Both<T>(p: T -> bool, q: T -> bool): T -> bool {
    x => p(x) && q(x)
  }

  /** Filtering twice is filtering once by both tests. */
  lemma {:induction false} FilterFilter<T>(s: seq<T>, p: T -> bool, q: T -> bool)
    ensures Filter(Filter(s, p), q) == Filter(s, Both(p, q))
  {
    if s != [] {
      FilterFilter(s[1..], p, q);
      if p(s[0]) {
        assert Filter(s, p) == [s[0]] + Filter(s[1..], p);
        assert Filter(s, p)[0] == s[0] && Filter(s, p)[1..] == Filter(s[1..], p);
      }
    }
  }

  /** A test every element passes keeps the whole sequence. */
  lemma {:induction false} FilterKeepsAll<T>(s: seq<T>, p: T -> bool)
    requires forall i :: 0 <= i < |s| ==> p(s[i])
    ensures Filter(s, p) == s
  {
    if s != [] {
      FilterKeepsAll(s[1..], p);
    }
  }

  /** Filters by tests that agree everywhere agree. */
  lemma {:induction false} FilterSameTest<T>(s: seq<T>, p: T -> bool, q: T -> bool)
    requires forall x :: p(x) == q(x)
    ensures Filter(s, p) == Filter(s, q)
  {
    if s != [] {
      FilterSameTest(s[1..], p, q);
    }
  }

  // ---------------------------------------------------------------------
  // sort

  /** Sorted ascending by `key`. */
  predicate SortedBy<T>(s: seq<T>, key: T -> int) {
    forall i, j :: 0 <= i < j < |s| ==> key(s[i]) <= key(s[j])
  }

  /** Puts `x` in front of the first element whose key is not smaller. */
  function Insert<T>(x: T, s: seq<T>, key: T -> int): (r: seq<T>)
    ensures multiset(r) == multiset(s) + multiset{x}
    ensures |r| == |s| + 1
  {
    if s == [] || key(x) <= key(s[0]) then [x] + s
    else
      assert s == [s[0]] + s[1..];
      [s[0]] + Insert(x, s[1..], key)
  }

  /** Insertion sort by `key`: stable, and the model of a sort with the
      comparator `key(a) - key(b)`. */
  function SortBy<T>(s: seq<T>, key: T -> int): (r: seq<T>)
    ensures multiset(r) == multiset(s)
    ensures |r| == |s|
  {
    if s == [] then []
    else
      assert s == [s[0]] + s[1..];
      Insert(s[0], SortBy(s[1..], key), key)
  }

  lemma {:induction false} InsertFacts<T>(x: T, s: seq<T>, key: T -> int)
    requires SortedBy(s, key)
    ensures multiset(Insert(x, s, key)) == multiset(s) + multiset{x}
    ensures SortedBy(Insert(x, s, key), key)
    ensures |Insert(x, s, key)| == |s| + 1
  {
    InsertSorted(x, s, key);
  }

  /** A lower bound on the keys of `x` and of `s` bounds the result. */
  lemma {:induction false} InsertLowerBound<T>(x: T, s: seq<T>, key: T -> int, b: int)
    requires key(x) >= b
    requires forall i :: 0 <= i < |s| ==> key(s[i]) >= b
    ensures forall i :: 0 <= i < |Insert(x, s, key)| ==> key(Insert(x, s, key)[i]) >= b
  {
    if s != [] && key(x) > key(s[0]) {
      InsertLowerBound(x, s[1..], key, b);
    }
  }

  lemma {:induction false} InsertSorted<T>(x: T, s: seq<T>, key: T -> int)
    requires SortedBy(s, key)
    ensures SortedBy(Insert(x, s, key), key)
  {
    if s != [] && key(x) > key(s[0]) {
      var rest := Insert(x, s[1..], key);
      InsertSorted(x, s[1..], key);
      InsertLowerBound(x, s[1..], key, key(s[0]));
      var r := Insert(x, s, key);
      assert r == [s[0]] + rest;
      forall i, j | 0 <= i < j < |r|
        ensures key(r[i]) <= key(r[j])
      {
        assert r[j] == rest[j - 1];
        if i > 0 {
          assert r[i] == rest[i - 1];
        }
      }
    }
  }

  /** The sort returns its input, reordered, ascending by `key`. */
  lemma {:induction false} SortByFacts<T>(s: seq<T>, key: T -> int)
    ensures multiset(SortBy(s, key)) == multiset(s)
    ensures SortedBy(SortBy(s, key), key)
    ensures |SortBy(s, key)| == |s|
  {
    if s != [] {
      var rest := SortBy(s[1..], key);
      SortByFacts(s[1..], key);
      InsertFacts(s[0], rest, key);
      assert SortBy(s, key) == Insert(s[0], rest, key);
      assert multiset(s) == multiset(s[1..]) + multiset{s[0]} by {
        assert s == [s[0]] + s[1..];
      }
    }
  }

  /** The test "has key `t`". */
  function KeyIs<T>(key: T -> int, t: int): T -> bool {
    x => key(x) == t
  }

  lemma {:induction false} InsertStable<T>(x: T, s: seq<T>, key: T -> int, t: int)
    requires SortedBy(s, key)
    ensures Filter(Insert(x, s, key), KeyIs(key, t)) ==
            if key(x) == t then [x] + Filter(s, KeyIs(key, t)) else Filter(s, KeyIs(key, t))
  {
    if s == [] || key(x) <= key(s[0]) {
      assert Insert(x, s, key) == [x] + s;
      assert ([x] + s)[0] == x && ([x] + s)[1..] == s;
    } else {
      var r := Insert(x, s, key);
      assert r[0] == s[0] && r[1..] == Insert(x, s[1..], key);
      InsertStable(x, s[1..], key, t);
      if key(x) == t {
        // s[0] precedes x and has a smaller key, so the filter drops it
        assert key(s[0]) != t;
      }
    }
  }

  /** Stability: among elements with the same key, the sort keeps the input
      order. */
  lemma {:induction false} SortByStable<T>(s: seq<T>, key: T -> int, t: int)
    ensures Filter(SortBy(s, key), KeyIs(key, t)) == Filter(s, KeyIs(key, t))
  {
    if s != [] {
      SortByStable(s[1..], key, t);
      SortByFacts(s[1..], key);
      InsertStable(s[0], SortBy(s[1..], key), key, t);
    }
  }
}

=== FILE: shift_mutations.dfy ===
/** The two shift mutations (src/hooks/useAddShift.ts and
    src/hooks/useEndShift.ts): the request each sends, and which of their
    outcomes mark the cached shift reads as stale, over an abstract query
    cache keyed by arrays of strings. */
module ShiftMutations {
  import opened Common
  import opened JsonValue
  import opened Types
  import Config
  import ShiftService

  // ---------------------------------------------------------------------
  // The query cache

  /** A cached read: its last data, and whether it has been invalidated. */
  datatype Query = Query(data: Option<Json>, stale: bool)

  type QueryKey = seq<string>

  /** `prefix` is a prefix of `key`, element by element: the matching rule
      of `invalidateQueries({queryKey})`. */
  predicate IsPrefix(prefix: QueryKey, key: QueryKey) {
    |prefix| <= |key| && key[..|prefix|] == prefix
  }

  /** The key prefix every shift read is cached under. */
  const ShiftKey: QueryKey := ["shift"]

  /** Marks every query whose key starts with `prefix` as stale. */
  function Invalidate(queries: map<QueryKey, Query>, prefix: QueryKey): (r: map<QueryKey, Query>)
    ensures r.Keys == queries.Keys
    ensures forall k :: k in r && IsPrefix(prefix, k) ==> r[k] == Query(queries[k].data, true)
    ensures forall k :: k in r && !IsPrefix(prefix, k) ==> r[k] == queries[k]
  {
    map k | k in queries :: if IsPrefix(prefix, k) then Query(queries[k].data, true) else queries[k]
  }

  /** Invalidating twice is invalidating once. */
  lemma InvalidateIdempotent(queries: map<QueryKey, Query>, prefix: QueryKey)
    ensures Invalidate(Invalidate(queries, prefix), prefix) == Invalidate(queries, prefix)
  {
    var once := Invalidate(queries, prefix);
    var twice := Invalidate(once, prefix);
    assert forall k :: k in twice ==> twice[k] == once[k];
  }

  /** Invalidating the shift prefix reaches the read of every establishment
      and no query outside the prefix. */
  lemma ShiftInvalidationCoversEveryEstablishment(queries: map<QueryKey, Query>, establishmentId: string, other: QueryKey)
    requires ["shift", establishmentId] in queries
    requires other in queries && (other == [] || other[0] != "shift")
    ensures Invalidate(queries, ShiftKey)[["shift", establishmentId]].stale
    ensures Invalidate(queries, ShiftKey)[other] == queries[other]
  {
    assert IsPrefix(ShiftKey, ["shift", establishmentId]);
    assert !IsPrefix(ShiftKey, other) by {
      if other != [] { assert other[..1][0] == other[0]; }
    }
  }

  // ---------------------------------------------------------------------
  // Requests, outcomes and reactions

  /** A POST the mutations send. */
  datatype Post = Post(path: string, body: Option<NewShiftBody>)

  /** What a mutation function ended with: the response data, or the
      rejection (with the HTTP status of its response, when there is one). */
  datatype MutationOutcome = Succeeded(data: Json) | Errored(error: JsError)

  /** An alert: a title and a message; the message of a success alert is the
      shift's `nombre`, absent when the data has none. */
  datatype Alert = Alert(title: string, message: Option<Json>)

  /** What a callback does: whether it invalidates the shift reads, and the
      alert it shows. */
  datatype Reaction = Reaction(invalidates: bool, alert: Alert)

  /** `postShift(input)`: the body is sent unchanged to the shifts endpoint. */
  function AddShiftRequest(input: NewShiftBody): (p: Post)
    ensures p.body == Some(input)
    ensures p.path == Config.ShiftsEndpoint
  {
    Post(Config.ShiftsEndpoint, Some(input))
  }

  /** `postEndShift(id)`: a POST without body to the close path of `id`. */
  function EndShiftRequest(establishmentId: string): (p: Post)
    ensures p.body.None?
    ensures ShiftService.IdBelow(Config.EndShiftEndpoint, p.path) == Some(establishmentId)
  {
    ShiftService.PathsNameTheirEstablishment(establishmentId);
    Post(ShiftService.EndShiftPath(establishmentId), None)
  }

  /** The error `data.nombre` raises when the response data is `null`. The
      text depends on the JavaScript engine; only its absent status
      matters. */
  const NullAccess := JsError("Cannot read properties of null (reading 'nombre')", None)

  /** The outcome the callbacks see. `onSuccess` reads `data.nombre` first,
      which throws for `null` data; the mutation then runs `onError` with
      that error instead. */
  function Settled(outcome: MutationOutcome): (r: MutationOutcome)
    ensures r.Succeeded? <==> outcome.Succeeded? && outcome.data != JNull
    ensures r.Succeeded? ==> r == outcome
    ensures r.Errored? ==> r.error.status == (if outcome.Errored? then outcome.error.status else None)
  {
    if outcome == Succeeded(JNull) then Errored(NullAccess) else outcome
  }

  /** `onSuccess`/`onError` of the add-shift mutation. */
  function AddShiftReaction(outcome: MutationOutcome): (r: Reaction)
    ensures r.invalidates <==> outcome.Succeeded? && outcome.data != JNull
    ensures r.invalidates ==> r.alert == Alert("Turno abierto", Field(outcome.data, "nombre"))
    ensures !r.invalidates ==> r.alert == Alert("Hubo un Error", Some(JStr("No se pudo abrir el turno, reinicie la app")))
  {
    match Settled(outcome)
    case Succeeded(data) => Reaction(true, Alert("Turno abierto", Field(data, "nombre")))
    case Errored(_) => Reaction(false, Alert("Hubo un Error", Some(JStr("No se pudo abrir el turno, reinicie la app"))))
  }

  /** `onSuccess`/`onError` of the end-shift mutation: a 400 means the shift
      was already closed, and still refreshes the shift reads. */
  function EndShiftReaction(outcome: MutationOutcome): (r: Reaction)
    ensures r.invalidates <==> (outcome.Succeeded? && outcome.data != JNull) || (outcome.Errored? && outcome.error.status == Some(400))
    ensures outcome.Succeeded? && outcome.data != JNull ==> r.alert == Alert("Turno cerrado", Field(outcome.data, "nombre"))
    ensures outcome.Errored? && outcome.error.status == Some(400) ==>
              r.alert == Alert("Turno ya cerrado", Some(JStr("Este turno ya fue cerrado anteriormente")))
    ensures outcome == Succeeded(JNull) || (outcome.Errored? && outcome.error.status != Some(400)) ==>
              r.alert == Alert("Hubo un Error", Some(JStr("No se pudo cerrar el turno, reinicie la app")))
  {
    match Settled(outcome)
    case Succeeded(data) => Reaction(true, Alert("Turno cerrado", Field(data, "nombre")))
    case Errored(e) =>
      if e.status == Some(400) then Reaction(true, Alert("Turno ya cerrado", Some(JStr("Este turno ya fue cerrado anteriormente"))))
      else Reaction(false, Alert("Hubo un Error", Some(JStr("No se pudo cerrar el turno, reinicie la app"))))
  }

  /** The cache after a reaction. */
  function React(queries: map<QueryKey, Query>, r: Reaction): (c: map<QueryKey, Query>)
    ensures c.Keys == queries.Keys
    ensures !r.invalidates ==> c == queries
    ensures r.invalidates ==> forall k :: k in c && IsPrefix(ShiftKey, k) ==> c[k].stale && c[k].data == queries[k].data
  {
    if r.invalidates then Invalidate(queries, ShiftKey) else queries
  }

  /** A `null` response body makes both mutations fail after the request
      went through: each shows its error alert and leaves the cache alone. */
  lemma NullBodyIsAnError(queries: map<QueryKey, Query>)
    ensures AddShiftReaction(Succeeded(JNull)).alert.title == "Hubo un Error"
    ensures EndShiftReaction(Succeeded(JNull)).alert.title == "Hubo un Error"
    ensures React(queries, AddShiftReaction(Succeeded(JNull))) == queries
    ensures React(queries, EndShiftReaction(Succeeded(JNull))) == queries
  {
  }

  /** Closing is at least as eager to refresh as opening: every outcome after
      which opening invalidates, closing invalidates too, and a 400 is the
      one error after which only closing does. */
  lemma EndInvalidatesWheneverAddDoes(outcome: MutationOutcome)
    ensures AddShiftReaction(outcome).invalidates ==> EndShiftReaction(outcome).invalidates
    ensures EndShiftReaction(outcome).invalidates && !AddShiftReaction(outcome).invalidates <==>
              outcome.Errored? && outcome.error.status == Some(400)
  {
  }

  /** A failed mutation that is not a 400 close leaves the cache exactly as
      it was. */
  lemma FailedMutationLeavesCache(queries: map<QueryKey, Query>, e: JsError)
    requires e.status != Some(400)
    ensures React(queries, AddShiftReaction(Errored(e))) == queries
    ensures React(queries, EndShiftReaction(Errored(e))) == queries
  {
  }

  // ---------------------------------------------------------------------
  // The shared cache and the mutations acting on it

  class QueryClient {
    var queries: map<QueryKey, Query>

    constructor(queries: map<QueryKey, Query>)
      ensures this.queries == queries
    {
      this.queries := queries;
    }

    /** `invalidateQueries({queryKey: prefix})`. */
    method InvalidateQueries(prefix: QueryKey)
      modifies this
      ensures queries == Invalidate(old(queries), prefix)
    {
      queries := Invalidate(queries, prefix);
    }
  }

  /** The two mutation hooks sharing one query client, and the alerts they
      have shown, oldest first. */
  class ShiftMutationHooks {
    const client: QueryClient
    var alerts: seq<Alert>

    constructor(client: QueryClient)
      ensures this.client == client && alerts == []
    {
      this.client := client;
      alerts := [];
    }

    /** `useAddShift().mutateAsync(input)`, where `outcome` is how the
        request `sent` ended. */
    method AddShift(input: NewShiftBody, outcome: MutationOutcome) returns (sent: Post)
      modifies this`alerts, client
      ensures sent == AddShiftRequest(input)
      ensures client.queries == React(old(client.queries), AddShiftReaction(outcome))
      ensures alerts == old(alerts) + [AddShiftReaction(outcome).alert]
    {
      sent := AddShiftRequest(input);
      var reaction := AddShiftReaction(outcome);
      alerts := alerts + [reaction.alert];
      if reaction.invalidates {
        client.InvalidateQueries(ShiftKey);
      }
    }

    /** `useEndShift().mutateAsync(id)`, where `outcome` is how the request
        `sent` ended. */
    method EndShift(establishmentId: string, outcome: MutationOutcome) returns (sent: Post)
      modifies this`alerts, client
      ensures sent == EndShiftRequest(establishmentId)
      ensures client.queries == React(old(client.queries), EndShiftReaction(outcome))
      ensures alerts == old(alerts) + [EndShiftReaction(outcome).alert]
    {
      sent := EndShiftRequest(establishmentId);
      var reaction := EndShiftReaction(outcome);
      alerts := alerts + [reaction.alert];
      if reaction.invalidates {
        client.InvalidateQueries(ShiftKey);
      }
    }
  }
}

=== FILE: shift_service.dfy ===
/** The shift service (src/services/shiftService.ts): reading the active shift
    of an establishment, opening a shift and closing one, each reduced to how
    it classifies the normalised response (or an `Error` raised by the
    request layer) into a value or an error message. */
module ShiftService {
  import opened Common
  import opened JsonValue
  import opened ApiClient
  import Config

  /** What the awaited request produced. */
  datatype ShiftCall = Returned(response: ApiResponse<Json>) | Rejected(error: JsError)

  /** What a service function ends with: a value, or a raised `Error`. */
  datatype Outcome<T> = Returns(value: T) | Throws(error: JsError)

  /** The one message that stands for "the shift endpoint does not exist". */
  const Unavailable := "El " + UnavailableReason + ". Contacte al administrador del sistema."
  const UnavailableReason := "servicio de turnos no está disponible"

  /** A new `Error` carrying `message` (no HTTP status attached). */
  function Raise<T>(message: string): Outcome<T> {
    Throws(JsError(message, None))
  }

  // ---------------------------------------------------------------------
  // Request paths

  function EstablishmentShiftPath(establishmentId: string): string {
    Config.ShiftsByEstablishmentEndpoint + "/" + establishmentId
  }

  function EndShiftPath(establishmentId: string): string {
    Config.EndShiftEndpoint + "/" + establishmentId
  }

  /** The establishment id a path below `endpoint` names, if any. */
  function IdBelow(endpoint: string, path: string): Option<string> {
    var prefix := endpoint + "/";
    if |prefix| <= |path| && path[..|prefix|] == prefix then Some(path[|prefix|..]) else None
  }

  /** Each path names exactly its establishment: the id can be read back, so
      distinct establishments get distinct paths. */
  lemma PathsNameTheirEstablishment(establishmentId: string)
    ensures IdBelow(Config.ShiftsByEstablishmentEndpoint, EstablishmentShiftPath(establishmentId)) == Some(establishmentId)
    ensures IdBelow(Config.EndShiftEndpoint, EndShiftPath(establishmentId)) == Some(establishmentId)
  {
    var p1 := Config.ShiftsByEstablishmentEndpoint + "/";
    assert EstablishmentShiftPath(establishmentId) == p1 + establishmentId;
    assert (p1 + establishmentId)[..|p1|] == p1 && (p1 + establishmentId)[|p1|..] == establishmentId;
    var p2 := Config.EndShiftEndpoint + "/";
    assert EndShiftPath(establishmentId) == p2 + establishmentId;
    assert (p2 + establishmentId)[..|p2|] == p2 && (p2 + establishmentId)[|p2|..] == establishmentId;
  }

  // ---------------------------------------------------------------------
  // getEstablishmentShift

  /** The active shift (`Some`), or none (`None`); an `Error` with status 404
      also means "no active shift"; any other `Error` is raised again. */
  function GetEstablishmentShift(call: ShiftCall): (r: Outcome<Option<Json>>)
    ensures r.Returns? && r.value.Some? <==>
              call.Returned? && call.response.success && TruthyField(call.response.data)
    ensures r.Returns? && r.value.Some? ==> r.value == call.response.data
    ensures r.Throws? <==> call.Rejected? && call.error.status != Some(404)
    ensures r.Throws? ==> r.error == call.error
  {
    match call
    case Returned(response) =>
      if response.success && TruthyField(response.data) then Returns(response.data) else Returns(None)
    case Rejected(e) =>
      if e.status == Some(404) then Returns(None) else Throws(e)
  }

  /** Neither a 404 nor any normalised response is an error: only a raised
      error with another status surfaces. */
  lemma NoShiftIsNotAnError(response: ApiResponse<Json>, message: string)
    ensures GetEstablishmentShift(Returned(response)).Returns?
    ensures GetEstablishmentShift(Rejected(JsError(message, Some(404)))) == Returns(None)
  {
  }

  // ---------------------------------------------------------------------
  // createShift and endShift

  /** The classification both catch blocks apply to an error message. */
  predicate MeansUnavailable(message: string) {
    Contains(message, "404") || Contains(message, "non-JSON")
  }

  const CreatePrefix := "Error al crear el turno: "
  const EndShiftFailed := "Error al cerrar el turno"

  /** The message the try block of `createShift` raises on a failed or empty
      response. */
  function CreateFailureMessage(response: ApiResponse<Json>): (r: string)
    ensures response.error.Some? && Contains(response.error.value, "404") ==> r == "ENDPOINT_NOT_AVAILABLE"
    ensures !(response.error.Some? && Contains(response.error.value, "404")) ==>
              |r| >= |CreatePrefix| && r[..|CreatePrefix|] == CreatePrefix
  {
    if response.error.Some? && Contains(response.error.value, "404") then "ENDPOINT_NOT_AVAILABLE"
    else CreatePrefix + OrElse(response.error, "Respuesta inválida")
  }

  /** The catch block of `createShift`: it always raises, the unavailable
      message for a 404, a non-JSON reply or the missing endpoint, the caught
      error unchanged otherwise. */
  function CreateCatch(e: JsError): (r: Outcome<Json>)
    ensures r.Throws?
    ensures MeansUnavailable(e.message) || e.message == "ENDPOINT_NOT_AVAILABLE" ==> r.error == JsError(Unavailable, None)
    ensures !MeansUnavailable(e.message) && e.message != "ENDPOINT_NOT_AVAILABLE" ==> r.error == e
  {
    if MeansUnavailable(e.message) || e.message == "ENDPOINT_NOT_AVAILABLE" then Raise(Unavailable)
    else Throws(e)
  }

  /** `createShift`: the created shift, exactly when the response succeeded
      with truthy data; otherwise an error message. */
  function CreateShift(call: ShiftCall): (r: Outcome<Json>)
    ensures r.Returns? <==> call.Returned? && call.response.success && TruthyField(call.response.data)
    ensures r.Returns? ==> Some(r.value) == call.response.data
  {
    match call
    case Returned(response) =>
      if !response.success || !TruthyField(response.data) then CreateCatch(JsError(CreateFailureMessage(response), None))
      else Returns(response.data.value)
    case Rejected(e) => CreateCatch(e)
  }

  /** A failed creation whose error names a 404 or a non-JSON answer ends as
      the single "service unavailable" message. */
  lemma CreateShiftUnavailable(response: ApiResponse<Json>)
    requires !response.success || !TruthyField(response.data)
    requires response.error.Some? && MeansUnavailable(response.error.value)
    ensures CreateShift(Returned(response)) == Raise(Unavailable)
  {
    var e := response.error.value;
    if !Contains(e, "404") {
      var m := CreatePrefix + OrElse(response.error, "Respuesta inválida");
      assert NonEmpty(response.error) by {
        if e == "" { MissingCharExcludes(e, "non-JSON", 'n'); }
      }
      assert m == CreatePrefix + e;
      ContainsExtend(CreatePrefix, e, "non-JSON");
    }
  }

  /** Any other failed creation raises "Error al crear el turno: " followed
      by the response's error, or "Respuesta inválida" when it has none. */
  lemma CreateShiftOtherFailure(response: ApiResponse<Json>)
    requires !response.success || !TruthyField(response.data)
    requires !(response.error.Some? && MeansUnavailable(response.error.value))
    ensures CreateShift(Returned(response)) == Raise(CreatePrefix + OrElse(response.error, "Respuesta inválida"))
  {
    var tail := OrElse(response.error, "Respuesta inválida");
    assert !MeansUnavailable(tail) by {
      if !NonEmpty(response.error) {
        MissingCharExcludes(tail, "404", '4');
        MissingCharExcludes(tail, "non-JSON", 'J');
      }
    }
    MissingCharExcludes(CreatePrefix, "404", '4');
    MissingCharExcludes(CreatePrefix, "non-JSON", 'J');
    ContainsBehindPrefix(CreatePrefix, tail, "404");
    ContainsBehindPrefix(CreatePrefix, tail, "non-JSON");
    var m := CreatePrefix + tail;
    assert |m| >= |CreatePrefix| > |"ENDPOINT_NOT_AVAILABLE"|;
  }

  /** The catch block of `endShift`: it always raises, the unavailable
      message for a 404 or a non-JSON reply, the caught error unchanged
      otherwise. */
  function EndCatch(e: JsError): (r: Outcome<Json>)
    ensures r.Throws?
    ensures MeansUnavailable(e.message) ==> r.error == JsError(Unavailable, None)
    ensures !MeansUnavailable(e.message) ==> r.error == e
  {
    if MeansUnavailable(e.message) then Raise(Unavailable) else Throws(e)
  }

  /** `endShift`: the closed shift, exactly when the response succeeded with
      truthy data. */
  function EndShift(call: ShiftCall): (r: Outcome<Json>)
    ensures r.Returns? <==> call.Returned? && call.response.success && TruthyField(call.response.data)
    ensures r.Returns? ==> Some(r.value) == call.response.data
  {
    match call
    case Returned(response) =>
      if !response.success || !TruthyField(response.data) then EndCatch(JsError(EndShiftFailed, None))
      else Returns(response.data.value)
    case Rejected(e) => EndCatch(e)
  }

  /** Every failed close response raises "Error al cerrar el turno", even
      for a 404 or a non-JSON answer: that message names neither. */
  lemma EndShiftFailureIsGeneric(response: ApiResponse<Json>)
    requires !response.success || !TruthyField(response.data)
    ensures EndShift(Returned(response)) == Raise(EndShiftFailed)
  {
    MissingCharExcludes(EndShiftFailed, "404", '4');
    MissingCharExcludes(EndShiftFailed, "non-JSON", 'J');
  }

  /** An `Error` raised while closing becomes the unavailable message exactly
      when it names a 404 or a non-JSON answer; any other is raised again. */
  lemma EndShiftRejectedError(e: JsError)
    ensures MeansUnavailable(e.message) ==> EndShift(Rejected(e)) == Raise(Unavailable)
    ensures !MeansUnavailable(e.message) ==> EndShift(Rejected(e)) == Throws(e)
  {
  }

  // ---------------------------------------------------------------------
  // Composed with the client: what a raw HTTP outcome ends as

  /** An endpoint that answers with anything but JSON makes opening a shift
      report "service unavailable", and closing one the generic error. */
  lemma NonJsonEndpoint(status: nat, contentType: Option<string>, body: Body)
    requires !IsJsonContentType(contentType)
    ensures CreateShift(Returned(MakeRequest(Responded(status, contentType, body)))) == Raise(Unavailable)
    ensures EndShift(Returned(MakeRequest(Responded(status, contentType, body)))) == Raise(EndShiftFailed)
  {
    var r := MakeRequest(Responded(status, contentType, body));
    NonJsonResponseFails(status, contentType, body);
    CreateShiftUnavailable(r);
    EndShiftFailureIsGeneric(r);
  }

  /** A JSON 404 without a message is "service unavailable" as well. */
  lemma NotFoundEndpoint(contentType: Option<string>)
    requires IsJsonContentType(contentType)
    ensures CreateShift(Returned(MakeRequest(Responded(404, contentType, Parsed(JObj(map[])))))) == Raise(Unavailable)
  {
    var r := MakeRequest(Responded(404, contentType, Parsed(JObj(map[]))));
    NotFoundText(contentType);
    assert OccursAt("HTTP 404", "404", 5);
    CreateShiftUnavailable(r);
  }
}

=== FILE: types.dfy ===
/** The records the core passes around: shifts (src/types/shift.ts) and
    vehicles (src/types/vehicle.ts). Fields the modelled code never reads are
    left out of the records. */
module Types {
  import opened Common

  // ---------------------------------------------------------------------
  // Shifts

  /** The five periods of the day a shift belongs to. */
  datatype ShiftState = Manana | Mediodia | Tarde | Noche | Madrugada

  /** The wire name of a period. */
  function ShiftStateName(t: ShiftState): string {
    match t
    case Manana => "MAÑANA"
    case Mediodia => "MEDIODIA"
    case Tarde => "TARDE"
    case Noche => "NOCHE"
    case Madrugada => "MADRUGADA"
  }

  /** The period a wire name denotes, if any. */
  function ParseShiftState(name: string): (r: Option<ShiftState>)
    ensures r.Some? ==> ShiftStateName(r.value) == name
  {
    if name == "MAÑANA" then Some(Manana)
    else if name == "MEDIODIA" then Some(Mediodia)
    else if name == "TARDE" then Some(Tarde)
    else if name == "NOCHE" then Some(Noche)
    else if name == "MADRUGADA" then Some(Madrugada)
    else None
  }

  /** Every period survives the trip through its wire name, so no two
      periods share a name. */
  lemma ShiftStateNameRoundTrip(t: ShiftState)
    ensures ParseShiftState(ShiftStateName(t)) == Some(t)
  {
  }

  /** Body of the open-shift request. */
  datatype NewShiftBody = NewShiftBody(establecimiento: string, turno: ShiftState, nombre: string)

  // ---------------------------------------------------------------------
  // Vehicles

  /** The six states of a vehicle stay, in the order the type lists them. */
  datatype VehicleState = Ingresado | Estacionado | Solicitado | EnCamino | Entregado | Facturado

  /** The wire name of a vehicle state. */
  function VehicleStateName(s: VehicleState): string {
    match s
    case Ingresado => "INGRESADO"
    case Estacionado => "ESTACIONADO"
    case Solicitado => "SOLICITADO"
    case EnCamino => "EN CAMINO"
    case Entregado => "ENTREGADO"
    case Facturado => "FACTURADO"
  }

  function ParseVehicleState(name: string): (r: Option<VehicleState>)
    ensures r.Some? ==> VehicleStateName(r.value) == name
  {
    if name == "INGRESADO" then Some(Ingresado)
    else if name == "ESTACIONADO" then Some(Estacionado)
    else if name == "SOLICITADO" then Some(Solicitado)
    else if name == "EN CAMINO" then Some(EnCamino)
    else if name == "ENTREGADO" then Some(Entregado)
    else if name == "FACTURADO" then Some(Facturado)
    else None
  }

  /** Every vehicle state survives the trip through its wire name. */
  lemma VehicleStateNameRoundTrip(s: VehicleState)
    ensures ParseVehicleState(VehicleStateName(s)) == Some(s)
  {
  }

  datatype Brand = Brand(id: string, descripcion: string, activo: bool)

  /** `marca` arrives either as a plain name or as a brand record. */
  datatype Marca = MarcaName(name: string) | MarcaRecord(brand: Brand)

  /** One entry of a vehicle's state history. */
  datatype HistoryEntry = HistoryEntry(estado: string, fecha: string, empleado: string)

  datatype Vehicle = Vehicle(
    id: string,
    patente: string,
    sector: string,
    nroLlave: Option<int>,
    marca: Option<Marca>,
    horaIngreso: string,
    horaEgreso: Option<string>,
    estado: VehicleState,
    createdAt: Option<string>,
    historialEstados: Option<seq<HistoryEntry>>,
    turno: Option<string>)

  /** Payload of a state change of one vehicle stay. */
  datatype UpdateVehicleState = UpdateVehicleState(ingresoId: string, estado: VehicleState, horaEgreso: Option<string>)

  datatype Establishment = Establishment(id: string, nombre: string)
}

=== FILE: use_shift.dfy ===
/** The shift hook (src/hooks/useShift.ts): the shift on display for one
    establishment, a loading flag and an error message, updated by loading
    the active shift, opening a shift and closing it. Each operation is a
    pure step on the hook's view, and the class applies those steps to its
    fields. */
module UseShift {
  import opened Common
  import opened JsonValue
  import opened ApiClient
  import opened Types
  import opened ShiftService

  /** The three pieces of state the hook holds. */
  datatype ShiftView = ShiftView(shift: Option<Json>, loading: bool, error: Option<string>)

  /** What opening or closing a shift did: the new view, the boolean the
      call resolves to, and the message of the alert it raised, if any. */
  datatype Step = Step(view: ShiftView, ok: bool, alert: Option<string>)

  const AlertTitle := "Error del Servidor"

  /** The words the hook looks for to recognise the unavailable service. */
  const Marker := "servicio de turnos no está disponible"

  /** The message the catch blocks of `startShift` and `endShift` show: the
      unavailable message when the error mentions the service is
      unavailable, the error's own message otherwise, and `fallback` for a
      thrown value that is not an `Error`. */
  function UserMessage(t: Thrown, fallback: string): (r: string)
    ensures t.ThrownOther? ==> r == fallback
    ensures t.ThrownError? && Contains(t.error.message, Marker) ==> r == Unavailable
    ensures t.ThrownError? && !Contains(t.error.message, Marker) ==> r == t.error.message
  {
    match t
    case ThrownError(e) => if Contains(e.message, Marker) then Unavailable else e.message
    case ThrownOther => fallback
  }

  lemma UnavailableHasMarker()
    ensures Contains(Unavailable, Marker)
  {
    var rest := ". Contacte al administrador del sistema.";
    assert Marker == UnavailableReason;
    assert Unavailable == "El " + Marker + rest;
    assert ("El " + Marker + rest)[3..3 + |Marker|] == Marker;
    assert OccursAt(Unavailable, Marker, 3);
  }

  /** The hook changes only the wording of messages about an unavailable
      service: the message shown mentions it exactly when the error did, and
      every other error is shown as raised. */
  lemma UserMessageKeepsMeaning(e: JsError, fallback: string)
    ensures Contains(UserMessage(ThrownError(e), fallback), Marker) <==> Contains(e.message, Marker)
    ensures !Contains(e.message, Marker) ==> UserMessage(ThrownError(e), fallback) == e.message
    ensures UserMessage(ThrownError(JsError(UserMessage(ThrownError(e), fallback), e.status)), fallback)
            == UserMessage(ThrownError(e), fallback)
  {
    UnavailableHasMarker();
  }

  const Separator := " - "

  /** The name given to a new shift: the date, the establishment and the
      period, separated by " - ". */
  function ShiftName(date: string, establishmentId: string, turno: ShiftState): (r: string)
    ensures |r| == |date| + |establishmentId| + |ShiftStateName(turno)| + 6
    ensures r[..|date|] == date
    ensures r[|date|..|date| + 3] == Separator
    ensures r[|date| + 3..|date| + 3 + |establishmentId|] == establishmentId
    ensures r[|date| + 3 + |establishmentId|..|date| + 6 + |establishmentId|] == Separator
    ensures r[|date| + 6 + |establishmentId|..] == ShiftStateName(turno)
  {
    date + Separator + establishmentId + Separator + ShiftStateName(turno)
  }

  /** Names of the same date and of establishment ids of one length tell
      the establishment and the period apart: equal names mean the same
      establishment and the same period. */
  lemma ShiftNameDeterminesParts(date: string, a: string, b: string, ta: ShiftState, tb: ShiftState)
    requires |a| == |b|
    ensures ShiftName(date, a, ta) == ShiftName(date, b, tb) <==> a == b && ta == tb
  {
    if ShiftName(date, a, ta) == ShiftName(date, b, tb) {
      ShiftStateNameRoundTrip(ta);
      ShiftStateNameRoundTrip(tb);
    }
  }

  // ---------------------------------------------------------------------
  // The three operations as steps

  /** `fetchShift`: without an establishment nothing happens; otherwise the
      loading flag ends cleared, and the view shows the active shift (or
      none), or keeps the previous shift and records the error. */
  function FetchShiftStep(v: ShiftView, establishmentId: Option<string>, call: ShiftCall): (w: ShiftView)
    ensures !NonEmpty(establishmentId) ==> w == v
    ensures NonEmpty(establishmentId) ==> !w.loading
    ensures NonEmpty(establishmentId) && GetEstablishmentShift(call).Returns? ==>
              w.shift == GetEstablishmentShift(call).value && w.error.None?
    ensures NonEmpty(establishmentId) && GetEstablishmentShift(call).Throws? ==>
              w.shift == v.shift && w.error == Some(GetEstablishmentShift(call).error.message)
  {
    if !NonEmpty(establishmentId) then v
    else
      match GetEstablishmentShift(call)
      case Returns(active) => ShiftView(active, false, None)
      case Throws(e) => ShiftView(v.shift, false, Some(MessageOr(ThrownError(e), "Error al cargar turno")))
  }

  /** What the try block of `startShift` ends with: the created shift when
      it carries an `_id`, an error otherwise. */
  function StartOutcome(call: ShiftCall): (r: Outcome<Json>)
    ensures r.Returns? <==> CreateShift(call).Returns? && TruthyField(Field(CreateShift(call).value, "_id"))
    ensures r.Returns? ==> Some(r.value) == call.response.data
    ensures CreateShift(call).Returns? && !r.Returns? ==> r.error == JsError("Respuesta inválida del servidor", None)
    ensures CreateShift(call).Throws? ==> r == CreateShift(call)
  {
    match CreateShift(call)
    case Returns(created) =>
      if TruthyField(Field(created, "_id")) then Returns(created) else Raise("Respuesta inválida del servidor")
    case Throws(e) => Throws(e)
  }

  /** A failed attempt: the shift on display stays, the error is shown in
      the view and in an alert. */
  function Failed(v: ShiftView, message: string): Step {
    Step(ShiftView(v.shift, false, Some(message)), false, Some(message))
  }

  /** `startShift`: succeeds exactly when the server created the shift and
      gave it an id; it then shows that shift and clears the error. */
  function StartShiftStep(v: ShiftView, establishmentId: Option<string>, call: ShiftCall): (s: Step)
    ensures !NonEmpty(establishmentId) ==> s == Step(v, false, None)
    ensures s.ok <==> NonEmpty(establishmentId) && call.Returned? && call.response.success
                      && TruthyField(call.response.data) && TruthyField(Field(call.response.data.value, "_id"))
    ensures s.ok ==> s.view == ShiftView(call.response.data, false, None) && s.alert.None?
    ensures NonEmpty(establishmentId) && !s.ok ==>
              s.view.shift == v.shift && !s.view.loading && s.view.error.Some? && s.alert == s.view.error
  {
    if !NonEmpty(establishmentId) then Step(v, false, None)
    else
      match StartOutcome(call)
      case Returns(created) => Step(ShiftView(Some(created), false, None), true, None)
      case Throws(e) => Failed(v, UserMessage(ThrownError(e), "Error al iniciar turno"))
  }

  /** `endShift`: succeeds exactly when the server closed the shift; it then
      shows no shift and clears the error. */
  function EndShiftStep(v: ShiftView, establishmentId: Option<string>, call: ShiftCall): (s: Step)
    ensures !NonEmpty(establishmentId) ==> s == Step(v, false, None)
    ensures s.ok <==> NonEmpty(establishmentId) && call.Returned? && call.response.success && TruthyField(call.response.data)
    ensures s.ok ==> s.view == ShiftView(None, false, None) && s.alert.None?
    ensures NonEmpty(establishmentId) && !s.ok ==>
              s.view.shift == v.shift && !s.view.loading && s.view.error.Some? && s.alert == s.view.error
  {
    if !NonEmpty(establishmentId) then Step(v, false, None)
    else
      match ShiftService.EndShift(call)
      case Returns(_) => Step(ShiftView(None, false, None), true, None)
      case Throws(e) => Failed(v, UserMessage(ThrownError(e), "Error al cerrar turno"))
  }

  // ---------------------------------------------------------------------
  // What the user sees for particular server answers

  /** A shift endpoint that answers with anything but JSON: opening a shift
      fails with the unavailable message in the view and in the alert. */
  lemma StartShiftOnNonJsonEndpoint(v: ShiftView, establishmentId: string, status: nat, contentType: Option<string>, body: Body)
    requires establishmentId != "" && !IsJsonContentType(contentType)
    ensures var s := StartShiftStep(v, Some(establishmentId), Returned(MakeRequest(Responded(status, contentType, body))));
            !s.ok && s.view.error == Some(Unavailable) && s.alert == Some(Unavailable) && s.view.shift == v.shift
  {
    NonJsonEndpoint(status, contentType, body);
    UnavailableHasMarker();
  }

  /** A created shift without an `_id` is rejected with "Respuesta inválida
      del servidor", and the previous shift stays on display. */
  lemma StartShiftWithoutId(v: ShiftView, establishmentId: string, response: ApiResponse<Json>)
    requires establishmentId != ""
    requires response.success && TruthyField(response.data) && !TruthyField(Field(response.data.value, "_id"))
    ensures var s := StartShiftStep(v, Some(establishmentId), Returned(response));
            !s.ok && s.view.error == Some("Respuesta inválida del servidor") && s.view.shift == v.shift
  {
    MissingCharExcludes("Respuesta inválida del servidor", Marker, 'b');
  }

  /** Closing on a failed response shows "Error al cerrar el turno": the
      generic message, never the unavailable one. */
  lemma EndShiftOnFailedResponse(v: ShiftView, establishmentId: string, response: ApiResponse<Json>)
    requires establishmentId != ""
    requires !response.success || !TruthyField(response.data)
    ensures var s := EndShiftStep(v, Some(establishmentId), Returned(response));
            !s.ok && s.view.error == Some("Error al cerrar el turno") && s.view.shift == v.shift
  {
    EndShiftFailureIsGeneric(response);
    MissingCharExcludes("Error al cerrar el turno", Marker, 'b');
  }

  /** Opening and then closing a shift, both answered successfully, leaves
      no shift on display and no error. */
  lemma StartThenEnd(v: ShiftView, establishmentId: string, created: ApiResponse<Json>, closed: ApiResponse<Json>)
    requires establishmentId != ""
    requires created.success && TruthyField(created.data) && TruthyField(Field(created.data.value, "_id"))
    requires closed.success && TruthyField(closed.data)
    ensures var s1 := StartShiftStep(v, Some(establishmentId), Returned(created));
            var s2 := EndShiftStep(s1.view, Some(establishmentId), Returned(closed));
            s1.ok && s1.view.shift == created.data && s2.ok && s2.view == ShiftView(None, false, None)
  {
  }

  // ---------------------------------------------------------------------
  // The hook

  class ShiftHook {
    const establishmentId: Option<string>
    var shift: Option<Json>
    var loading: bool
    var error: Option<string>
    /** Messages of the alerts raised so far, oldest first; every alert has
        the title `AlertTitle`. */
    var alerts: seq<string>

    function View(): ShiftView
      reads this
    {
      ShiftView(shift, loading, error)
    }

    /** The hook as first rendered: no shift, not loading, no error. */
    constructor(establishmentId: Option<string>)
      ensures this.establishmentId == establishmentId
      ensures View() == ShiftView(None, false, None) && alerts == []
    {
      this.establishmentId := establishmentId;
      shift := None;
      loading := false;
      error := None;
      alerts := [];
    }

    /** `fetchShift` (also `refetch`, and the effect run on mount), given the
        outcome of the request it sends. */
    method FetchShift(call: ShiftCall)
      modifies this`shift, this`loading, this`error
      ensures View() == FetchShiftStep(old(View()), establishmentId, call)
    {
      if !NonEmpty(establishmentId) {
        return;
      }
      loading := true;
      error := None;
      var active := GetEstablishmentShift(call);
      if active.Returns? {
        shift := active.value;
      } else {
        error := Some(MessageOr(ThrownError(active.error), "Error al cargar turno"));
      }
      loading := false;
    }

    /** `startShift(turno)` on the day `today` (the date as
        `toLocaleDateString('es-ES')` writes it): `sent` is the body of the
        request, none without an establishment; `call` is its outcome. */
    method StartShift(turno: ShiftState, today: string, call: ShiftCall) returns (ok: bool, sent: Option<NewShiftBody>)
      modifies this`shift, this`loading, this`error, this`alerts
      ensures var s := StartShiftStep(old(View()), establishmentId, call);
              View() == s.view && ok == s.ok && alerts == old(alerts) + (if s.alert.Some? then [s.alert.value] else [])
      ensures sent.Some? <==> NonEmpty(establishmentId)
      ensures sent.Some? ==> sent.value == NewShiftBody(establishmentId.value, turno, ShiftName(today, establishmentId.value, turno))
    {
      if !NonEmpty(establishmentId) {
        return false, None;
      }
      loading := true;
      error := None;
      var id := establishmentId.value;
      sent := Some(NewShiftBody(id, turno, ShiftName(today, id, turno)));
      var outcome := StartOutcome(call);
      if outcome.Returns? {
        shift := Some(outcome.value);
        ok := true;
      } else {
        var message := UserMessage(ThrownError(outcome.error), "Error al iniciar turno");
        error := Some(message);
        alerts := alerts + [message];
        ok := false;
      }
      loading := false;
    }

    /** `endShift()`, given the outcome of the request it sends. */
    method EndShift(call: ShiftCall) returns (ok: bool)
      modifies this`shift, this`loading, this`error, this`alerts
      ensures var s := EndShiftStep(old(View()), establishmentId, call);
              View() == s.view && ok == s.ok && alerts == old(alerts) + (if s.alert.Some? then [s.alert.value] else [])
    {
      if !NonEmpty(establishmentId) {
        return false;
      }
      loading := true;
      error := None;
      var outcome := ShiftService.EndShift(call);
      if outcome.Returns? {
        shift := None;
        ok := true;
      } else {
        var message := UserMessage(ThrownError(outcome.error), "Error al cerrar turno");
        error := Some(message);
        alerts := alerts + [message];
        ok := false;
      }
      loading := false;
    }
  }
}

=== FILE: use_vehicles.dfy ===
/** The vehicle hooks (src/hooks/useVehicles.ts): the vehicle list, the
    brands, the loading flag and the error of one establishment, with the
    list transforms applied after a successful request; and the list of
    establishments with its automatic selection. Each request's outcome is
    a parameter. */
module UseVehicles {
  import opened Common
  import opened Types
  import opened Seqs
  import opened JsonValue
  import ApiClient

  /** What an awaited service call produced: its value, or what it threw. */
  datatype Fetched<T> = Got(value: T) | Failed(thrown: Thrown)

  // ---------------------------------------------------------------------
  // List transforms

  /** `[newVehicle, ...prev]` */
  function Prepend(v: Vehicle, vs: seq<Vehicle>): (r: seq<Vehicle>)
    ensures |r| == |vs| + 1 && r[0] == v && r[1..] == vs
  {
    [v] + vs
  }

  /** One element of the `map`: the vehicle with the given id gets the new
      state and exit time (an absent exit time included); any other is left
      as it is. */
  function Updated(v: Vehicle, u: UpdateVehicleState): (r: Vehicle)
    ensures r.id == v.id
    ensures v.id != u.ingresoId ==> r == v
    ensures v.id == u.ingresoId ==> r.estado == u.estado && r.horaEgreso == u.horaEgreso
    ensures r.(estado := v.estado, horaEgreso := v.horaEgreso) == v
  {
    if v.id == u.ingresoId then v.(estado := u.estado, horaEgreso := u.horaEgreso) else v
  }

  /** `prev.map(...)` of `updateVehicleState`. */
  function UpdateById(vs: seq<Vehicle>, u: UpdateVehicleState): (r: seq<Vehicle>)
    ensures |r| == |vs|
    ensures forall i :: 0 <= i < |vs| && vs[i].id != u.ingresoId ==> r[i] == vs[i]
    ensures forall i :: 0 <= i < |vs| && vs[i].id == u.ingresoId ==>
              r[i] == vs[i].(estado := u.estado, horaEgreso := u.horaEgreso)
  {
    if vs == [] then [] else [Updated(vs[0], u)] + UpdateById(vs[1..], u)
  }

  /** The test "has an id other than `id`". */
  function IdIsNot(id: string): Vehicle -> bool {
    (v: Vehicle) => v.id != id
  }

  /** The update touches nothing but the vehicles with the id: the others
      stay, in order; every vehicle keeps its id, and the matching ones end
      in the new state. */
  lemma {:induction false} UpdateTouchesOnlyItsId(vs: seq<Vehicle>, u: UpdateVehicleState)
    ensures Filter(UpdateById(vs, u), IdIsNot(u.ingresoId)) == Filter(vs, IdIsNot(u.ingresoId))
    ensures forall i :: 0 <= i < |vs| ==> UpdateById(vs, u)[i].id == vs[i].id
    ensures forall i :: 0 <= i < |vs| && vs[i].id == u.ingresoId ==> UpdateById(vs, u)[i].estado == u.estado
  {
    if vs != [] {
      UpdateTouchesOnlyItsId(vs[1..], u);
      var r := UpdateById(vs, u);
      assert r[0] == Updated(vs[0], u) && r[1..] == UpdateById(vs[1..], u);
    }
  }

  /** Applying the same update twice is applying it once; an update for an
      id no vehicle has changes nothing. */
  lemma UpdateIdempotent(vs: seq<Vehicle>, u: UpdateVehicleState)
    ensures UpdateById(UpdateById(vs, u), u) == UpdateById(vs, u)
    ensures (forall i :: 0 <= i < |vs| ==> vs[i].id != u.ingresoId) ==> UpdateById(vs, u) == vs
  {
    UpdateTouchesOnlyItsId(vs, u);
  }

  /** Updates of two different vehicles can be applied in either order. */
  lemma UpdatesCommute(vs: seq<Vehicle>, a: UpdateVehicleState, b: UpdateVehicleState)
    requires a.ingresoId != b.ingresoId
    ensures UpdateById(UpdateById(vs, a), b) == UpdateById(UpdateById(vs, b), a)
  {
    UpdateTouchesOnlyItsId(vs, a);
    UpdateTouchesOnlyItsId(vs, b);
  }

  /** A vehicle just added and then updated by its id is the first of the
      list with the new state, and the older list behind it is updated
      alike. */
  lemma AddThenUpdate(v: Vehicle, vs: seq<Vehicle>, u: UpdateVehicleState)
    requires u.ingresoId == v.id
    ensures UpdateById(Prepend(v, vs), u) == [v.(estado := u.estado, horaEgreso := u.horaEgreso)] + UpdateById(vs, u)
  {
    assert Prepend(v, vs)[1..] == vs;
  }

  // ---------------------------------------------------------------------
  // useVehicles

  /** The state cells of `useVehicles`. */
  datatype VehiclesView = VehiclesView(vehicles: seq<Vehicle>, brands: seq<Brand>, loading: bool, error: Option<string>)

  /** The state after an operation, and what the operation returned. */
  datatype VehiclesStep<R> = VehiclesStep(view: VehiclesView, result: R)

  /** The end of a failed operation: the message of the thrown error, or the
      operation's own default. */
  function Fail(view: VehiclesView, thrown: Thrown, fallback: string): (r: VehiclesView)
    ensures r.vehicles == view.vehicles && r.brands == view.brands && !r.loading
    ensures r.error == Some(MessageOr(thrown, fallback))
  {
    view.(loading := false, error := Some(MessageOr(thrown, fallback)))
  }

  const LoadVehiclesFailed := "Error al cargar vehículos"
  const LoadBrandsFailed := "Error al cargar marcas"
  const AddVehicleFailed := "Error al agregar vehículo"
  const UpdateStateFailed := "Error al actualizar estado del vehículo"
  const SearchPlateFailed := "Error al buscar patente"

  /** `fetchVehicles`: nothing without an establishment id; otherwise the
      list is replaced by the fetched one, or kept with an error. */
  function FetchVehiclesStep(view: VehiclesView, establishmentId: Option<string>, got: Fetched<seq<Vehicle>>): (r: VehiclesView)
    ensures !NonEmpty(establishmentId) ==> r == view
    ensures NonEmpty(establishmentId) && got.Got? ==> r == view.(vehicles := got.value, loading := false, error := None)
    ensures NonEmpty(establishmentId) && got.Failed? ==> r == Fail(view, got.thrown, LoadVehiclesFailed)
  {
    if !NonEmpty(establishmentId) then view
    else match got
      case Got(data) => view.(vehicles := data, loading := false, error := None)
      case Failed(thrown) => Fail(view, thrown, LoadVehiclesFailed)
  }

  /** `fetchBrands` */
  function FetchBrandsStep(view: VehiclesView, got: Fetched<seq<Brand>>): (r: VehiclesView)
    ensures got.Got? ==> r == view.(brands := got.value, loading := false, error := None)
    ensures got.Failed? ==> r == Fail(view, got.thrown, LoadBrandsFailed)
  {
    match got
    case Got(data) => view.(brands := data, loading := false, error := None)
    case Failed(thrown) => Fail(view, thrown, LoadBrandsFailed)
  }

  /** `addVehicle`: the created vehicle goes first in the list and is
      returned; on failure nothing is returned. */
  function AddVehicleStep(view: VehiclesView, got: Fetched<Vehicle>): (r: VehiclesStep<Option<Vehicle>>)
    ensures got.Got? ==> r.view == view.(vehicles := Prepend(got.value, view.vehicles), loading := false, error := None)
                         && r.result == Some(got.value)
    ensures got.Failed? ==> r.view == Fail(view, got.thrown, AddVehicleFailed) && r.result.None?
  {
    match got
    case Got(v) => VehiclesStep(view.(vehicles := Prepend(v, view.vehicles), loading := false, error := None), Some(v))
    case Failed(thrown) => VehiclesStep(Fail(view, thrown, AddVehicleFailed), None)
  }

  /** `updateVehicleState`: `failure` is what the request threw, if
      anything. */
  function UpdateStateStep(view: VehiclesView, u: UpdateVehicleState, failure: Option<Thrown>): (r: VehiclesStep<bool>)
    ensures r.result <==> failure.None?
    ensures failure.None? ==> r.view == view.(vehicles := UpdateById(view.vehicles, u), loading := false, error := None)
    ensures failure.Some? ==> r.view == Fail(view, failure.value, UpdateStateFailed)
  {
    if failure.None? then VehiclesStep(view.(vehicles := UpdateById(view.vehicles, u), loading := false, error := None), true)
    else VehiclesStep(Fail(view, failure.value, UpdateStateFailed), false)
  }

  /** `searchPlate`: the service's answer (possibly none) is passed through;
      the list is never touched. */
  function SearchPlateStep(view: VehiclesView, got: Fetched<Option<Json>>): (r: VehiclesStep<Option<Json>>)
    ensures r.view.vehicles == view.vehicles && r.view.brands == view.brands && !r.view.loading
    ensures got.Got? ==> r.result == got.value && r.view.error.None?
    ensures got.Failed? ==> r.result.None? && r.view.error == Some(MessageOr(got.thrown, SearchPlateFailed))
  {
    match got
    case Got(found) => VehiclesStep(view.(loading := false, error := None), found)
    case Failed(thrown) => VehiclesStep(Fail(view, thrown, SearchPlateFailed), None)
  }

  /** A failing request of any kind leaves the vehicles and brands as they
      were and records an error. */
  lemma FailuresKeepLists(view: VehiclesView, id: string, u: UpdateVehicleState, t: Thrown)
    requires id != ""
    ensures var r := FetchVehiclesStep(view, Some(id), Failed(t));
            r.vehicles == view.vehicles && r.brands == view.brands && r.error.Some?
    ensures var r := FetchBrandsStep(view, Failed(t));
            r.vehicles == view.vehicles && r.brands == view.brands && r.error.Some?
    ensures var r := AddVehicleStep(view, Failed(t)).view;
            r.vehicles == view.vehicles && r.brands == view.brands && r.error.Some?
    ensures var r := UpdateStateStep(view, u, Some(t)).view;
            r.vehicles == view.vehicles && r.brands == view.brands && r.error.Some?
  {
  }

  /** Every request that was made ends with the loading flag down; the
      fetch with no establishment makes none and changes nothing. */
  lemma LoadingSettles(view: VehiclesView, establishmentId: Option<string>, gv: Fetched<seq<Vehicle>>,
                       gb: Fetched<seq<Brand>>, ga: Fetched<Vehicle>, u: UpdateVehicleState, f: Option<Thrown>)
    ensures NonEmpty(establishmentId) ==> !FetchVehiclesStep(view, establishmentId, gv).loading
    ensures !FetchBrandsStep(view, gb).loading
    ensures !AddVehicleStep(view, ga).view.loading
    ensures !UpdateStateStep(view, u, f).view.loading
  {
  }

  /** A thrown error's own message wins over the operation's default. */
  lemma ThrownMessageWins(view: VehiclesView, e: JsError, u: UpdateVehicleState)
    ensures UpdateStateStep(view, u, Some(ThrownError(e))).view.error == Some(e.message)
    ensures UpdateStateStep(view, u, Some(ThrownOther)).view.error == Some(UpdateStateFailed)
  {
  }

  class VehiclesHook {
    const establishmentId: Option<string>
    var vehicles: seq<Vehicle>
    var brands: seq<Brand>
    var loading: bool
    var error: Option<string>

    function View(): VehiclesView
      reads this
    {
      VehiclesView(vehicles, brands, loading, error)
    }

    /** The hook as first rendered. */
    constructor(establishmentId: Option<string>)
      ensures this.establishmentId == establishmentId
      ensures View() == VehiclesView([], [], false, None)
    {
      this.establishmentId := establishmentId;
      vehicles := [];
      brands := [];
      loading := false;
      error := None;
    }

    /** `fetchVehicles` (also `refetch` and the effect run on mount). */
    method FetchVehicles(got: Fetched<seq<Vehicle>>)
      modifies this
      ensures View() == FetchVehiclesStep(old(View()), establishmentId, got)
    {
      if !NonEmpty(establishmentId) {
        return;
      }
      loading := true;
      error := None;
      match got {
        case Got(data) =>
          vehicles := data;
        case Failed(thrown) =>
          error := Some(MessageOr(thrown, LoadVehiclesFailed));
      }
      loading := false;
    }

    /** `fetchBrands` (also run on mount). */
    method FetchBrands(got: Fetched<seq<Brand>>)
      modifies this
      ensures View() == FetchBrandsStep(old(View()), got)
    {
      loading := true;
      error := None;
      match got {
        case Got(data) =>
          brands := data;
        case Failed(thrown) =>
          error := Some(MessageOr(thrown, LoadBrandsFailed));
      }
      loading := false;
    }

    method AddVehicle(got: Fetched<Vehicle>) returns (added: Option<Vehicle>)
      modifies this
      ensures var s := AddVehicleStep(old(View()), got);
              View() == s.view && added == s.result
    {
      loading := true;
      error := None;
      match got {
        case Got(v) =>
          vehicles := [v] + vehicles;
          added := Some(v);
        case Failed(thrown) =>
          error := Some(MessageOr(thrown, AddVehicleFailed));
          added := None;
      }
      loading := false;
    }

    method UpdateVehicleState(u: UpdateVehicleState, failure: Option<Thrown>) returns (ok: bool)
      modifies this
      ensures var s := UpdateStateStep(old(View()), u, failure);
              View() == s.view && ok == s.result
    {
      loading := true;
      error := None;
      if failure.None? {
        vehicles := UpdateById(vehicles, u);
        ok := true;
      } else {
        error := Some(MessageOr(failure.value, UpdateStateFailed));
        ok := false;
      }
      loading := false;
    }

    method SearchPlate(got: Fetched<Option<Json>>) returns (found: Option<Json>)
      modifies this
      ensures var s := SearchPlateStep(old(View()), got);
              View() == s.view && found == s.result
    {
      loading := true;
      error := None;
      match got {
        case Got(result) =>
          found := result;
        case Failed(thrown) =>
          error := Some(MessageOr(thrown, SearchPlateFailed));
          found := None;
      }
      loading := false;
    }
  }

  // ---------------------------------------------------------------------
  // useEstablishments

  /** The state cells of `useEstablishments`. */
  datatype EstablishmentsView = EstablishmentsView(
    establishments: seq<Establishment>,
    selected: Option<Establishment>,
    loading: bool,
    error: Option<string>)

  const LoadEstablishmentsFailed := "Error al cargar establecimientos"

  /** `fetchEstablishments`: a successful response with data replaces the
      list, and its first entry is selected when nothing was; any other
      response leaves both alone. */
  function FetchEstablishmentsStep(view: EstablishmentsView, call: ApiClient.Call<seq<Establishment>>): (r: EstablishmentsView)
    ensures !r.loading
    ensures call.Raised? ==> r == view.(loading := false, error := Some(MessageOr(call.thrown, LoadEstablishmentsFailed)))
    ensures call.Answered? ==> r.error.None?
  {
    match call
    case Raised(thrown) => view.(loading := false, error := Some(MessageOr(thrown, LoadEstablishmentsFailed)))
    case Answered(reply) =>
      if reply.success && reply.data.Some? then
        var list := reply.data.value;
        var selected := if view.selected.None? && |list| > 0 then Some(list[0]) else view.selected;
        EstablishmentsView(list, selected, false, None)
      else view.(loading := false, error := None)
  }

  /** The automatic selection: it happens only when nothing is selected and
      the received list is non-empty, and then picks its first entry; a
      selection already made is never replaced. */
  lemma AutoSelectOnlyWhenNone(view: EstablishmentsView, reply: ApiClient.ApiResponse<seq<Establishment>>)
    ensures var r := FetchEstablishmentsStep(view, ApiClient.Answered(reply));
            && (view.selected.Some? ==> r.selected == view.selected)
            && (r.selected != view.selected <==> view.selected.None? && reply.success && reply.data.Some? && reply.data.value != [])
            && (r.selected != view.selected ==> r.selected == Some(reply.data.value[0]))
    ensures var r := FetchEstablishmentsStep(view, ApiClient.Answered(reply));
            r.establishments == (if reply.success && reply.data.Some? then reply.data.value else view.establishments)
  {
  }

  class EstablishmentsHook {
    var establishments: seq<Establishment>
    var selected: Option<Establishment>
    var loading: bool
    var error: Option<string>

    function View(): EstablishmentsView
      reads this
    {
      EstablishmentsView(establishments, selected, loading, error)
    }

    constructor()
      ensures View() == EstablishmentsView([], None, false, None)
    {
      establishments := [];
      selected := None;
      loading := false;
      error := None;
    }

    /** `setSelectedEstablishment` */
    method Select(e: Option<Establishment>)
      modifies this
      ensures View() == old(View()).(selected := e)
    {
      selected := e;
    }

    /** `fetchEstablishments` (also `refetch` and the effect). */
    method FetchEstablishments(call: ApiClient.Call<seq<Establishment>>)
      modifies this
      ensures View() == FetchEstablishmentsStep(old(View()), call)
    {
      loading := true;
      error := None;
      match call {
        case Raised(thrown) =>
          error := Some(MessageOr(thrown, LoadEstablishmentsFailed));
        case Answered(reply) =>
          if reply.success && reply.data.Some? {
            establishments := reply.data.value;
            if selected.None? && |reply.data.value| > 0 {
              selected := Some(reply.data.value[0]);
            }
          }
      }
      loading := false;
    }
  }
}

=== FILE: vehicle_card.dfy ===
/** The vehicle card (src/components/VehicleCard.tsx): its border tone by
    state, the time it shows, and the key and brand lines. */
module VehicleCard {
  import opened Common
  import opened Types
  import VehicleTag

  /** The theme colour families the card borders use. */
  datatype Tone = ErrorTone | WarningTone | SuccessTone | SecondaryTone

  /** `getStateColor` of the card, over any state text. */
  function CardTone(estado: string): (t: Tone)
    ensures t == SecondaryTone <==> ParseVehicleState(estado).None?
  {
    if estado == "ESTACIONADO" || estado == "INGRESADO" then ErrorTone
    else if estado == "EN CAMINO" || estado == "SOLICITADO" then WarningTone
    else if estado == "ENTREGADO" || estado == "FACTURADO" then SuccessTone
    else SecondaryTone
  }

  /** The card's tone and the tag's colour classify every state text the
      same way. */
  lemma CardAgreesWithTag(estado: string)
    ensures CardTone(estado) == ErrorTone <==> VehicleTag.TagColor(estado) == VehicleTag.RedHex
    ensures CardTone(estado) == WarningTone <==> VehicleTag.TagColor(estado) == VehicleTag.YellowHex
    ensures CardTone(estado) == SuccessTone <==> VehicleTag.TagColor(estado) == VehicleTag.GreenHex
    ensures CardTone(estado) == SecondaryTone <==> VehicleTag.TagColor(estado) == VehicleTag.GreyHex
  {
  }

  /** `getDisplayHour`: `formatTime` is the time-of-day formatting of a
      date text. Only the last history entry is consulted; with no usable
      date there, the arrival time is shown when it looks like a time, and
      "--:--" otherwise. */
  function DisplayHour(history: Option<seq<HistoryEntry>>, horaIngreso: string, formatTime: string -> string): (r: string)
    ensures history.Some? && history.value != [] && history.value[|history.value| - 1].fecha != "" ==>
              r == formatTime(history.value[|history.value| - 1].fecha)
    ensures !(history.Some? && history.value != [] && history.value[|history.value| - 1].fecha != "") ==>
              (Contains(horaIngreso, ":") ==> r == horaIngreso) && (!Contains(horaIngreso, ":") ==> r == "--:--")
  {
    if history.Some? && |history.value| > 0 && history.value[|history.value| - 1].fecha != "" then
      formatTime(history.value[|history.value| - 1].fecha)
    else if Contains(horaIngreso, ":") then horaIngreso
    else "--:--"
  }

  /** Earlier history entries never matter, even when the last one has no
      date and an earlier one has. */
  lemma OnlyLastEntryCounts(earlier: seq<HistoryEntry>, last: HistoryEntry, horaIngreso: string, formatTime: string -> string)
    ensures DisplayHour(Some(earlier + [last]), horaIngreso, formatTime) == DisplayHour(Some([last]), horaIngreso, formatTime)
  {
    assert (earlier + [last])[|earlier + [last]| - 1] == last;
  }

  /** `nroLlave?.toString() || '--'` */
  function KeyText(nroLlave: Option<int>): (r: string)
    ensures r == "--" <==> nroLlave.None?
    ensures nroLlave.Some? ==> r == IntToString(nroLlave.value)
  {
    if nroLlave.Some? then
      var text := IntToString(nroLlave.value);
      assert text != "--" by {
        if nroLlave.value < 0 {
          assert text == "-" + NatToString(-nroLlave.value);
          assert text[1] == NatToString(-nroLlave.value)[0];
        }
      }
      text
    else "--"
  }

  /** The brand line: the name when the brand is a non-empty text, the
      record's description when it is a record, and no line otherwise. */
  function BrandLine(marca: Option<Marca>): (r: Option<string>)
    ensures r.None? <==> marca.None? || marca.value == MarcaName("")
    ensures r.Some? && marca.value.MarcaName? ==> r.value == marca.value.name
    ensures r.Some? && marca.value.MarcaRecord? ==> r.value == marca.value.brand.descripcion
  {
    match marca
    case None => None
    case Some(MarcaName(name)) => if name == "" then None else Some(name)
    case Some(MarcaRecord(brand)) => Some(brand.descripcion)
  }
}

=== FILE: vehicle_group_tags.dfy ===
/** The group tags above the list (src/components/VehicleGroupTags.tsx): each
    group's vehicles sorted by arrival time, the three tags with their
    counts and selection, the press handler and the call made on mount. */
module VehicleGroupTags {
  import opened Common
  import opened Types
  import opened Seqs
  import opened VehicleList

  // ---------------------------------------------------------------------
  // Sorting

  /** The date a vehicle is sorted by: its creation date when that is a
      non-empty text, its arrival time otherwise. */
  function SortKey(v: Vehicle): (r: string)
    ensures NonEmpty(v.createdAt) ==> r == v.createdAt.value
    ensures !NonEmpty(v.createdAt) ==> r == v.horaIngreso
  {
    OrElse(v.createdAt, v.horaIngreso)
  }

  /** The comparator's numeric key: `timeOf` stands for `new Date(text).getTime()`. */
  function TimeKey(timeOf: string -> int): Vehicle -> int {
    (v: Vehicle) => timeOf(SortKey(v))
  }

  /** One group's vehicles, filtered and then sorted. */
  function SortedBucket(vs: seq<Vehicle>, layer: Layer, timeOf: string -> int): (r: seq<Vehicle>)
    ensures multiset(r) == multiset(Bucket(vs, layer))
    ensures SortedBy(r, TimeKey(timeOf))
  {
    SortByFacts(Bucket(vs, layer), TimeKey(timeOf));
    SortBy(Bucket(vs, layer), TimeKey(timeOf))
  }

  /** A sorted group holds exactly the vehicles of that group, as often as
      the list does, in ascending time order; vehicles with the same time
      keep their list order. */
  lemma SortedBucketFacts(vs: seq<Vehicle>, layer: Layer, timeOf: string -> int, t: int)
    ensures var r := SortedBucket(vs, layer, timeOf);
            && multiset(r) == multiset(Bucket(vs, layer))
            && |r| == |Bucket(vs, layer)|
            && SortedBy(r, TimeKey(timeOf))
            && (forall i :: 0 <= i < |r| ==> LayerOf(r[i].estado) == layer)
            && Filter(r, KeyIs(TimeKey(timeOf), t)) == Filter(Bucket(vs, layer), KeyIs(TimeKey(timeOf), t))
  {
    var b := Bucket(vs, layer);
    var r := SortedBucket(vs, layer, timeOf);
    SortByFacts(b, TimeKey(timeOf));
    SortByStable(b, TimeKey(timeOf), t);
    forall i | 0 <= i < |r|
      ensures LayerOf(r[i].estado) == layer
    {
      assert r[i] in multiset(b);
      var k :| 0 <= k < |b| && b[k] == r[i];
    }
  }

  /** The three sorted groups split the list as the unsorted ones do. */
  lemma SortedBucketsPartition(vs: seq<Vehicle>, timeOf: string -> int)
    ensures multiset(SortedBucket(vs, Red, timeOf)) + multiset(SortedBucket(vs, Yellow, timeOf))
              + multiset(SortedBucket(vs, Green, timeOf)) == multiset(vs)
    ensures |SortedBucket(vs, Red, timeOf)| + |SortedBucket(vs, Yellow, timeOf)| + |SortedBucket(vs, Green, timeOf)| == |vs|
  {
    BucketsPartition(vs);
  }

  // ---------------------------------------------------------------------
  // Tags

  /** What one tag is given: the state that colours it, its label, its
      count and whether it is selected. */
  datatype TagView = TagView(state: VehicleState, displayText: string, quantity: nat, selected: bool)

  /** The tag of one group. */
  function TagOf(vs: seq<Vehicle>, layer: Layer, selectedLayer: Layer, timeOf: string -> int): (t: TagView)
    ensures t.quantity == |Bucket(vs, layer)|
    ensures LayerOf(t.state) == layer
    ensures t.selected <==> layer == selectedLayer
  {
    var count := |SortedBucket(vs, layer, timeOf)|;
    match layer
    case Red => TagView(Ingresado, "Ingresos", count, selectedLayer == Red)
    case Yellow => TagView(Solicitado, "Solicitados", count, selectedLayer == Yellow)
    case Green => TagView(Entregado, "Egresos", count, selectedLayer == Green)
  }

  /** The three tags, red, yellow and green. */
  function Tags(vs: seq<Vehicle>, selectedLayer: Layer, timeOf: string -> int): (r: seq<TagView>)
    ensures |r| == 3
  {
    [TagOf(vs, Red, selectedLayer, timeOf), TagOf(vs, Yellow, selectedLayer, timeOf), TagOf(vs, Green, selectedLayer, timeOf)]
  }

  /** Each tag counts its own group and is coloured by a state of that
      group; the counts add up to the list's length; exactly one tag is
      selected, the one of the selected group. */
  lemma TagsFacts(vs: seq<Vehicle>, selectedLayer: Layer, timeOf: string -> int)
    ensures var tags := Tags(vs, selectedLayer, timeOf);
            && tags[0].quantity == |Bucket(vs, Red)|
            && tags[1].quantity == |Bucket(vs, Yellow)|
            && tags[2].quantity == |Bucket(vs, Green)|
            && tags[0].quantity + tags[1].quantity + tags[2].quantity == |vs|
            && LayerOf(tags[0].state) == Red && LayerOf(tags[1].state) == Yellow && LayerOf(tags[2].state) == Green
            && (forall i :: 0 <= i < 3 ==> (tags[i].selected <==> LayerOf(tags[i].state) == selectedLayer))
  {
    var tags := Tags(vs, selectedLayer, timeOf);
    var red := TagOf(vs, Red, selectedLayer, timeOf);
    var yellow := TagOf(vs, Yellow, selectedLayer, timeOf);
    var green := TagOf(vs, Green, selectedLayer, timeOf);
    assert tags == [red, yellow, green];
    BucketSizes(vs);
    forall i | 0 <= i < 3
      ensures tags[i].selected <==> LayerOf(tags[i].state) == selectedLayer
    {
      assert tags[i] == red || tags[i] == yellow || tags[i] == green;
    }
  }

  /** The length half of `BucketsPartition` (a step of `TagsFacts`). */
  lemma BucketSizes(vs: seq<Vehicle>)
    ensures |Bucket(vs, Red)| + |Bucket(vs, Yellow)| + |Bucket(vs, Green)| == |vs|
  {
    BucketsPartition(vs);
  }

  // ---------------------------------------------------------------------
  // Callbacks

  /** A call of `onLayerChange`: the group and the vehicles passed. */
  datatype LayerChange = LayerChange(layer: Layer, vehicles: seq<Vehicle>)

  /** `handlePress(group)`: passes the group and its sorted vehicles. */
  function PressedGroup(vs: seq<Vehicle>, group: Layer, timeOf: string -> int): (c: LayerChange)
    ensures c.layer == group
    ensures multiset(c.vehicles) == multiset(Bucket(vs, group)) && SortedBy(c.vehicles, TimeKey(timeOf))
  {
    SortByFacts(Bucket(vs, group), TimeKey(timeOf));
    LayerChange(group, SortedBucket(vs, group, timeOf))
  }

  /** The mount effect: the yellow group, sorted, when it has vehicles; no
      call otherwise. */
  function MountCall(vs: seq<Vehicle>, timeOf: string -> int): (c: Option<LayerChange>)
    ensures c.Some? <==> Bucket(vs, Yellow) != []
    ensures c.Some? ==> c.value == PressedGroup(vs, Yellow, timeOf)
  {
    SortByFacts(Bucket(vs, Yellow), TimeKey(timeOf));
    if |SortedBucket(vs, Yellow, timeOf)| > 0 then Some(LayerChange(Yellow, SortedBucket(vs, Yellow, timeOf))) else None
  }

  /** The commit in which the tags mount inside the list: React runs the
      tags' mount effect first and then the list's own initial-list effect
      when the group sizes changed in the same commit (`sizesChanged`). */
  method MountCommit(view: ListView, vs: seq<Vehicle>, timeOf: string -> int, sizesChanged: bool)
    modifies view
    ensures view.selectedLayer == (if Bucket(vs, Yellow) != [] then Yellow else old(view.selectedLayer))
    ensures sizesChanged ==> view.shown == InitialShown(vs)
    ensures !sizesChanged ==> view.shown == (if Bucket(vs, Yellow) != [] then SortedBucket(vs, Yellow, timeOf) else old(view.shown))
  {
    var call := MountCall(vs, timeOf);
    if call.Some? {
      view.HandleLayerChange(call.value.layer, call.value.vehicles);
    }
    if sizesChanged {
      view.InitialListEffect(vs);
    }
  }

  /** When the sizes changed with the mount, the list's effect overwrites the
      sorted yellow group with the same vehicles in list order. */
  lemma MountedYellowIsUnsorted(vs: seq<Vehicle>, timeOf: string -> int)
    requires Bucket(vs, Yellow) != []
    ensures InitialShown(vs) == Bucket(vs, Yellow)
    ensures multiset(InitialShown(vs)) == multiset(MountCall(vs, timeOf).value.vehicles)
  {
  }
}

=== FILE: vehicle_list.dfy ===
/** The vehicle list (src/components/VehicleList.tsx): the filter by active
    shift, the case-insensitive plate search, the three colour groups the
    six vehicle states fall into, and the list on display with its selected
    group. */
module VehicleList {
  import opened Common
  import opened Types
  import opened Seqs

  // ---------------------------------------------------------------------
  // Colour groups

  /** The three groups: red for arrived, yellow for requested, green for
      handed over. */
  datatype Layer = Red | Yellow | Green

  /** The group a vehicle state belongs to. */
  function LayerOf(s: VehicleState): (l: Layer)
    ensures l == Red <==> s == Ingresado || s == Estacionado
    ensures l == Yellow <==> s == Solicitado || s == EnCamino
    ensures l == Green <==> s == Entregado || s == Facturado
  {
    match s
    case Ingresado | Estacionado => Red
    case Solicitado | EnCamino => Yellow
    case Entregado | Facturado => Green
  }

  /** The test of one group's `filter`. */
  function InLayer(layer: Layer): Vehicle -> bool {
    (v: Vehicle) => LayerOf(v.estado) == layer
  }

  /** The vehicles of one group, in list order. */
  function Bucket(vs: seq<Vehicle>, layer: Layer): (r: seq<Vehicle>)
    ensures forall i :: 0 <= i < |r| ==> LayerOf(r[i].estado) == layer
  {
    Filter(vs, InLayer(layer))
  }

  /** The three groups split the list: each vehicle lands in exactly one of
      them, so their sizes add up to the list's, and together they hold
      every vehicle as often as the list does. */
  lemma {:induction false} BucketsPartition(vs: seq<Vehicle>)
    ensures multiset(Bucket(vs, Red)) + multiset(Bucket(vs, Yellow)) + multiset(Bucket(vs, Green)) == multiset(vs)
    ensures |Bucket(vs, Red)| + |Bucket(vs, Yellow)| + |Bucket(vs, Green)| == |vs|
  {
    if vs != [] {
      BucketsPartition(vs[1..]);
      BucketsStep(vs);
      assert vs == [vs[0]] + vs[1..];
    }
  }

  /** The first vehicle joins its own group and no other (the inductive
      step of `BucketsPartition`). */
  lemma BucketsStep(vs: seq<Vehicle>)
    requires vs != []
    ensures multiset(Bucket(vs, Red)) + multiset(Bucket(vs, Yellow)) + multiset(Bucket(vs, Green))
            == multiset{vs[0]} + (multiset(Bucket(vs[1..], Red)) + multiset(Bucket(vs[1..], Yellow)) + multiset(Bucket(vs[1..], Green)))
    ensures |Bucket(vs, Red)| + |Bucket(vs, Yellow)| + |Bucket(vs, Green)|
            == 1 + |Bucket(vs[1..], Red)| + |Bucket(vs[1..], Yellow)| + |Bucket(vs[1..], Green)|
  {
    BucketCons(vs, Red);
    BucketCons(vs, Yellow);
    BucketCons(vs, Green);
    var l := LayerOf(vs[0].estado);
    assert l == Red || l == Yellow || l == Green;
  }

  /** One step of a group's filter, on the sequence, its multiset and its
      length (used by `BucketsStep`). */
  lemma BucketCons(vs: seq<Vehicle>, layer: Layer)
    requires vs != []
    ensures Bucket(vs, layer) == (if LayerOf(vs[0].estado) == layer then [vs[0]] else []) + Bucket(vs[1..], layer)
    ensures multiset(Bucket(vs, layer)) ==
              (if LayerOf(vs[0].estado) == layer then multiset{vs[0]} else multiset{}) + multiset(Bucket(vs[1..], layer))
    ensures |Bucket(vs, layer)| == (if LayerOf(vs[0].estado) == layer then 1 else 0) + |Bucket(vs[1..], layer)|
  {
    if LayerOf(vs[0].estado) == layer {
      assert Bucket(vs, layer) == [vs[0]] + Bucket(vs[1..], layer);
    } else {
      assert Bucket(vs, layer) == Bucket(vs[1..], layer);
    }
  }

  // ---------------------------------------------------------------------
  // Filters

  /** The shift filter: vehicles not yet handed over always stay; handed
      over ones stay only when they belong to the active shift. `None`
      stands for an absent shift id (no active shift). */
  function ShiftFilter(activeShiftId: Option<string>): (keep: Vehicle -> bool)
    ensures forall v: Vehicle :: v.estado != Entregado ==> keep(v)
    ensures forall v: Vehicle :: v.estado == Entregado ==> (keep(v) <==> v.turno == activeShiftId)
  {
    (v: Vehicle) => v.estado != Entregado || v.turno == activeShiftId
  }

  /** The plate search: the plate, lower-cased, contains the search text,
      lower-cased. */
  function PlateFilter(search: string): (keep: Vehicle -> bool)
    ensures search == "" ==> forall v: Vehicle :: keep(v)
    ensures forall v: Vehicle :: ToLower(v.patente) == ToLower(search) ==> keep(v)
  {
    assert forall v: Vehicle :: ToLower(v.patente) == ToLower(search) || search == "" ==>
             Contains(ToLower(v.patente), ToLower(search)) by {
      forall v: Vehicle ensures ToLower(v.patente) == ToLower(search) || search == "" ==>
                                Contains(ToLower(v.patente), ToLower(search)) {
        ContainsTrivially(ToLower(v.patente));
      }
    }
    (v: Vehicle) => Contains(ToLower(v.patente), ToLower(search))
  }

  function FilteredByShift(vs: seq<Vehicle>, activeShiftId: Option<string>): (r: seq<Vehicle>)
    ensures SubsequenceOf(r, vs)
    ensures forall i :: 0 <= i < |vs| && vs[i].estado != Entregado ==> vs[i] in r
    ensures forall i :: 0 <= i < |r| ==> r[i].estado != Entregado || r[i].turno == activeShiftId
  {
    FilterIsSubsequence(vs, ShiftFilter(activeShiftId));
    Filter(vs, ShiftFilter(activeShiftId))
  }

  /** The list both filters leave, which the groups are taken from. */
  function Searched(vs: seq<Vehicle>, activeShiftId: Option<string>, search: string): (r: seq<Vehicle>)
    ensures |r| <= |vs|
    ensures forall i :: 0 <= i < |r| ==> Contains(ToLower(r[i].patente), ToLower(search))
    ensures forall i :: 0 <= i < |r| ==> r[i].estado != Entregado || r[i].turno == activeShiftId
  {
    Filter(FilteredByShift(vs, activeShiftId), PlateFilter(search))
  }

  /** Without an active shift only the handed-over vehicles without a shift
      survive among the handed-over ones; every other vehicle survives. */
  lemma ShiftFilterWithoutShift(v: Vehicle)
    ensures ShiftFilter(None)(v) <==> v.estado != Entregado || v.turno.None?
  {
  }

  /** The searched list keeps the order of the vehicles it keeps, and keeps
      exactly those passing both filters. */
  lemma SearchedIsOrderedSelection(vs: seq<Vehicle>, activeShiftId: Option<string>, search: string)
    ensures SubsequenceOf(Searched(vs, activeShiftId, search), vs)
    ensures Searched(vs, activeShiftId, search) == Filter(vs, Both(ShiftFilter(activeShiftId), PlateFilter(search)))
  {
    FilterFilter(vs, ShiftFilter(activeShiftId), PlateFilter(search));
    FilterIsSubsequence(vs, Both(ShiftFilter(activeShiftId), PlateFilter(search)));
  }

  /** An empty search keeps the whole shift-filtered list. */
  lemma EmptySearchKeepsAll(vs: seq<Vehicle>, activeShiftId: Option<string>)
    ensures Searched(vs, activeShiftId, "") == FilteredByShift(vs, activeShiftId)
  {
    var shifted := FilteredByShift(vs, activeShiftId);
    forall i | 0 <= i < |shifted| ensures PlateFilter("")(shifted[i]) {
      assert OccursAt(ToLower(shifted[i].patente), "", 0);
    }
    FilterKeepsAll(shifted, PlateFilter(""));
  }

  /** The search ignores the case of the search text. */
  lemma SearchIgnoresCase(vs: seq<Vehicle>, activeShiftId: Option<string>, search: string)
    ensures Searched(vs, activeShiftId, ToLower(search)) == Searched(vs, activeShiftId, search)
  {
    ToLowerIdempotent(search);
    FilterSameTest(FilteredByShift(vs, activeShiftId), PlateFilter(ToLower(search)), PlateFilter(search));
  }

  // ---------------------------------------------------------------------
  // The list on display

  /** The initial-list effect: the yellow group if it has vehicles, else the
      red one, else the green one, else nothing. */
  function InitialShown(searched: seq<Vehicle>): (r: seq<Vehicle>)
    ensures r == [] <==> searched == []
    ensures r == Bucket(searched, Yellow) || r == Bucket(searched, Red) || r == Bucket(searched, Green)
  {
    BucketsPartition(searched);
    var yellow := Bucket(searched, Yellow);
    var red := Bucket(searched, Red);
    var green := Bucket(searched, Green);
    if |yellow| > 0 then yellow
    else if |red| > 0 then red
    else if |green| > 0 then green
    else []
  }

  /** The effect prefers groups in the order yellow, red, green: it shows a
      red vehicle only when there is no yellow one, and a green one only
      when there is neither. */
  lemma InitialShownPreference(searched: seq<Vehicle>)
    ensures var r := InitialShown(searched);
            && (r != [] && LayerOf(r[0].estado) == Red ==> Bucket(searched, Yellow) == [])
            && (r != [] && LayerOf(r[0].estado) == Green ==> Bucket(searched, Yellow) == [] && Bucket(searched, Red) == [])
  {
  }

  /** The selected group and the list on display. */
  class ListView {
    var selectedLayer: Layer
    var shown: seq<Vehicle>

    constructor()
      ensures selectedLayer == Yellow && shown == []
    {
      selectedLayer := Yellow;
      shown := [];
    }

    /** `handleLayerChange`: selects a group and shows the given list. */
    method HandleLayerChange(layer: Layer, vs: seq<Vehicle>)
      modifies this
      ensures selectedLayer == layer && shown == vs
    {
      selectedLayer := layer;
      shown := vs;
    }

    /** The initial-list effect, run again whenever a group's size changes:
        replaces the list on display and leaves the selection alone. */
    method InitialListEffect(searched: seq<Vehicle>)
      modifies this`shown
      ensures shown == InitialShown(searched)
    {
      var yellow := Bucket(searched, Yellow);
      var red := Bucket(searched, Red);
      var green := Bucket(searched, Green);
      if |yellow| > 0 {
        shown := yellow;
      } else if |red| > 0 {
        shown := red;
      } else if |green| > 0 {
        shown := green;
      } else {
        shown := [];
      }
    }
  }

  /** With no requested vehicle but an arrived one, the effect shows the
      red group while the yellow tag stays selected. */
  lemma SelectionCanDisagreeWithList(v: Vehicle)
    requires LayerOf(v.estado) == Red
    ensures InitialShown([v]) == [v] && LayerOf(InitialShown([v])[0].estado) != Yellow
  {
    assert Bucket([v], Yellow) == [];
    assert [v][1..] == [];
  }
}

=== FILE: vehicle_tag.dfy ===
/** The group tag (src/components/VehicleTag.tsx): its colour by state name,
    its label and its count. */
module VehicleTag {
  import opened Common
  import opened Types
  import opened VehicleList

  const RedHex := "#EF4444"
  const YellowHex := "#F59E0B"
  const GreenHex := "#10B981"
  const GreyHex := "#6B7280"

  /** `getStateColor`, over any state text. */
  function TagColor(estado: string): (c: string)
    ensures c == GreyHex <==> ParseVehicleState(estado).None?
    ensures c == RedHex || c == YellowHex || c == GreenHex || c == GreyHex
  {
    if estado == "ESTACIONADO" || estado == "INGRESADO" then RedHex
    else if estado == "EN CAMINO" || estado == "SOLICITADO" then YellowHex
    else if estado == "ENTREGADO" || estado == "FACTURADO" then GreenHex
    else GreyHex
  }

  /** The colour of a group. */
  function LayerColor(l: Layer): string {
    match l
    case Red => RedHex
    case Yellow => YellowHex
    case Green => GreenHex
  }

  /** A known state is painted in its group's colour, and any other text in
      grey: the colours follow the grouping of the list. */
  lemma TagColorFollowsLayer(estado: string)
    ensures ParseVehicleState(estado).Some? ==> TagColor(estado) == LayerColor(LayerOf(ParseVehicleState(estado).value))
    ensures ParseVehicleState(estado).None? ==> TagColor(estado) == GreyHex
  {
  }

  /** Distinct groups get distinct colours, none of them grey. */
  lemma LayerColorsDistinct(a: Layer, b: Layer)
    ensures LayerColor(a) == LayerColor(b) <==> a == b
    ensures LayerColor(a) != GreyHex
  {
  }

  /** `displayText || state` */
  function Label(displayText: Option<string>, state: VehicleState): (r: string)
    ensures r != ""
    ensures NonEmpty(displayText) ==> r == displayText.value
    ensures !NonEmpty(displayText) ==> r == VehicleStateName(state)
  {
    if NonEmpty(displayText) then displayText.value else VehicleStateName(state)
  }

  /** `quantity ?? 0` */
  function Quantity(quantity: Option<int>): (r: int)
    ensures quantity.Some? ==> r == quantity.value
    ensures quantity.None? ==> r == 0
  {
    if quantity.Some? then quantity.value else 0
  }
}
